=== FILE: README.md ===
# mixtube-playback: sequencer, player and player factory in Dafny

This project models the playback core of mixtube-playback.

- **The sequencer** (`src/main/sequencer.js`) decides which playback slot preloads, which one is being skipped to, which one plays, and which ones are ending. It also decides which calls (`load`, `start`, `end`, `proceed`, `suspend`) reach each slot.
- **The player** (`src/main/player.js`) is a facade over a native video adapter. It handles play configuration, the audio gain, the forced debug duration, and fade bookkeeping.
- **The player factory** (`src/main/playerFactory.js`) picks the adapter for a provider and configures both the adapter and the player.

The model is functional. Each operation is a pure function of an immutable state record, and it returns the new state together with a trace of the calls made.

**Sequencer state** (`PlaybackSequencer.Sequencer`) holds:

- the global state (`pristine`, `playing`, `paused`, `stopped`);
- the three role references, as `Option<SlotId>`;
- the ending collection, in insertion order;
- the entry each slot was created for (a slot is named by its creation index);
- the slots with a pending `move` continuation.

**Async completions are explicit events.** When a slot's load resolves (`LoadDone`), the continuations `skip` and `move` attached to it run. When a slot's `end()` resolves (`EndDone`), the slot leaves the ending collection.

**Whole runs.** `SequencerRuns.Run` applies any interleaving of calls, cues and completions. Properties about whole runs are proved over it.

**The unshown helpers** `singleton`, `collection` and `enumeration` are assumed to behave as follows. The header of `sequencer.dfy` states this too.

- `set(x)` calls `changedListener(prev, x)`.
- `clear()` is silent.
- `add` calls `addedListener`.

Files:

- `wrappers.dfy`: `Option` and `Result`.
- `sequencer.dfy`: the sequencer's state, its listeners, its operations and its completion events.
- `sequencer_steps.dfy`: what each single operation or completion does.
- `sequencer_runs.dfy`: runs of arbitrarily many events.
- `player.dfy`: the player facade and its properties.
- `player_factory.dfy`: the factory, and the YouTube adapter's quality lookup.

## Model

| member | source | states |
|---|---|---|
| PlaybackSequencer.Init | src/main/sequencer.js:42-43 | A new sequencer is `pristine`, tracks no slot, and satisfies the invariant (roles pairwise distinct, ending slots distinct and in no role, every slot created). |
| PlaybackSequencer.Notify | src/main/sequencer.js:44-53 | The changed listener of the state calls `proceed()` (or `suspend()`) once per slot it is given, in the order given. |
| PlaybackSequencer.Remove | src/main/sequencer.js:59-61 | Removing a slot from the ending collection keeps exactly the other slots, and keeps them distinct. |
| SequencerSteps.TrackedExactly | src/main/sequencer.js:92-99 | `forEachSlot` (`PlaybackSequencer.Tracked`) visits exactly the preloading, skipping, playing and ending slots, each once. |
| SequencerSteps.NotifyCount | src/main/sequencer.js:92-99 | A slot receives exactly one `proceed` (or `suspend`) when it is among the visited slots, and none otherwise. |
| SequencerSteps.SetStateNotifiesTracked | src/main/sequencer.js:42-55 | `_state.set(s)` (`PlaybackSequencer.SetState`) sets the state and changes no slot or role. Entering `playing` calls `proceed()`, and entering `paused` calls `suspend()`, exactly once on every tracked slot and on no other; any other state calls nothing. |
| SequencerSteps.AddEndingEndsSlot | src/main/sequencer.js:57-59 | `_endingSlots.add(s)` (`PlaybackSequencer.AddEnding`) on a slot that just lost its role: the slot joins the ending collection, gets exactly one `end()` and nothing else is called, and the invariant is kept. |
| SequencerSteps.SetPreloadingEndsAndLoads | src/main/sequencer.js:65-70 | `_preloadingSlot.set(x)` (`PlaybackSequencer.SetPreloading`): x becomes the preloading slot. The previous one, if any, gets exactly one `end()`, before x, if any, gets exactly one `load()`. No other call is made. |
| SequencerSteps.SetSkippingRetiresPrevious | src/main/sequencer.js:72-76 | `_skippingSlot.set(s)` (`PlaybackSequencer.SetSkipping`): s becomes the skipping slot. The previous one, if any, moves to the ending collection and gets exactly one `end()`. No other call is made. |
| SequencerSteps.NewSlotSuspendsWhenPaused | src/main/sequencer.js:105-115 | `newPlaybackSlot(e)` (`PlaybackSequencer.NewSlot`) creates one new slot for e, holding no role yet. The slot is suspended, exactly once, if and only if the sequencer is `paused`. No other call is made and nothing else changes. |
| SequencerSteps.PlayProceedsEveryTrackedSlot | src/main/sequencer.js:184-186 | `play()` (`PlaybackSequencer.Play`) makes the state `playing` and changes nothing else. It calls `proceed()` exactly once on every tracked slot, ending slots included, and makes no other call. |
| SequencerSteps.PauseSuspendsEveryTrackedSlot | src/main/sequencer.js:188-190 | `pause()` (`PlaybackSequencer.Pause`) makes the state `paused` and changes nothing else. It calls `suspend()` exactly once on every tracked slot, and makes no other call. |
| SequencerSteps.SkipReplacesSkippingSlot | src/main/sequencer.js:166-172 | `skip` (`PlaybackSequencer.Skip`) with no entry throws and creates nothing. Otherwise a new slot for the entry becomes the skipping slot, and no other role changes. The previous skipping slot, if any, moves to the ending collection. The calls are exactly: the creation first, `suspend()` on the new slot if and only if the state is `paused`, one `end()` on the previous skipping slot, and `load()` of the new slot last. Each is made once, and no other call is made. |
| SequencerSteps.PreloadReplacesPreloadingSlot | src/main/sequencer.js:131-139 | `preload` (`PlaybackSequencer.Preload`) with no entry throws. Otherwise a new slot becomes the preloading slot. The previous preloading slot is not put in the ending collection. The calls are exactly: the creation first, `suspend()` on the new slot if and only if the state is `paused`, one `end()` on the previous preloading slot, and `load()` of the new slot last. Each is made once, and no other call is made. |
| SequencerSteps.BecomePlaying | src/main/sequencer.js:78-90 | When a slot becomes playing (`PlaybackSequencer.SetPlaying`), the previous playing slot moves to the ending collection. The calls are exactly these, each made once: `start()` on that slot and on no other; `nextEntryProducer` asked with that slot's entry; `end()` on the previous playing slot; and, if and only if the producer returns an entry, the creation, suspension when `paused`, and `load()` of a new preloading slot. No other call is made. |
| SequencerSteps.SkipLoadPromotes | src/main/sequencer.js:174-180 | The skip branch of a load resolution (`PlaybackSequencer.OnLoadDone`): when the current skipping slot's load resolves, skipping is cleared and that slot plays. Only the old playing slot joins the ending collection. The calls are exactly those of the slot becoming playing, plus one `end()` on the old preloading slot, each made once; the promoted slot is never ended. The slot stops being awaited by a `move`, and no other slot starts or stops being awaited. |
| SequencerSteps.MoveLoadPromotes | src/main/sequencer.js:150-154 | The `move` branch of a load resolution (`PlaybackSequencer.OnLoadDone`): when the slot is still the preloading slot, preloading is cleared and the slot plays. The skipping slot is untouched. The calls are exactly those of the slot becoming playing, each made once, so only the old playing slot is ended. The slot stops being awaited by a `move`, and no other slot starts or stops being awaited. |
| SequencerSteps.StaleLoadIgnored | src/main/sequencer.js:173-181 | The remaining branch of a load resolution (`PlaybackSequencer.OnLoadDone`): a load resolution for a slot that is neither the skipping slot nor a preloading slot awaited by `move` changes no role, no slot and the state not at all, and makes no call. The only change is that the slot stops being awaited by a `move`. |
| SequencerSteps.MoveWaitingOnlyByMove | src/main/sequencer.js:145-181 | Over every event, only `move()` makes a load continuation wait, and only on the slot preloading at that moment. A load resolution stops its own slot being awaited. Every other event leaves the set of awaited slots unchanged. |
| SequencerSteps.MoveWaitsForPreloading | src/main/sequencer.js:146-157 | `move()` (`PlaybackSequencer.Move`) does nothing without a preloading slot. Otherwise it re-loads that slot and registers the continuation, and changes nothing else. |
| SequencerSteps.ComingNextReportsUpcoming | src/main/sequencer.js:117-126 | `notifyComingNext` (`PlaybackSequencer.NotifyComingNext`) throws without a playing slot. Otherwise it reports the playing slot's video and, as the next video, the skipping slot's, else the preloading slot's, else none. It changes nothing. |
| SequencerSteps.EndDoneRemovesSlot | src/main/sequencer.js:59-61 | When a slot's `end()` resolves (`PlaybackSequencer.OnEndDone`), it leaves the ending collection, every other ending slot stays, and nothing else changes or is called. |
| SequencerSteps.StepAccounts | src/main/sequencer.js:57-90 | For every event, the invariant is kept and every new slot holds a role. A slot that has lost its role never regains it. The slots that get `end()` are exactly those the event displaced from a role, each once. |
| SequencerSteps.PlayingChangesOnlyByPromotion | src/main/sequencer.js:146-182 | The playing slot changes only on a load resolution. The slot that resolved then plays, and it was the skipping slot, or the preloading slot that a `move` waits on. |
| SequencerRuns.ThrownCallChangesNothing | src/main/sequencer.js:166-169 | Exactly two calls throw: `skip` without an entry, and a coming-next cue with nothing playing (line 125). A call that throws changes no state and makes no call. Any other event has the effect of its operation. |
| SequencerRuns.Run | src/main/sequencer.js:38-203 | Any sequence of calls, cues and completions keeps the invariant, and slots are only ever added. |
| SequencerRuns.RunKeepsEndsAccounted | src/main/sequencer.js:57-90 | Over any run, the `end()` calls so far are exactly one per created slot that holds no role, and none for a slot that holds one. |
| SequencerRuns.EveryDisplacedSlotEndedOnce | src/main/sequencer.js:57-90 | From a new sequencer, after any run: every slot displaced from its role got `end()` exactly once, and no slot still in a role ever got it. |
| SequencerRuns.RunSkips | src/main/sequencer.js:166-172 | After back-to-back `skip` calls, the last new slot is the skipping slot. Every earlier one, and the skipping slot before them, has been ended, and no other slot. |
| SequencerRuns.RunLoads | src/main/sequencer.js:173-181 | Load resolutions in any order and with repeats promote only the latest skipped slot, and only once its own load resolves. The last slot is never ended and the earlier ones regain no role. |
| SequencerRuns.LatestSkipWins | src/main/sequencer.js:166-182 | Back-to-back skips, then load resolutions in any order, leave playing only the last skip's entry. Until that slot's load resolves, nothing changes what plays. Every earlier new slot and the former skipping slot have been ended, and the last slot never has. |
| SequencerRuns.StepState | src/main/sequencer.js:184-190 | `play` sets the state to `playing`, `pause` sets it to `paused`, and no other event changes it. |
| SequencerRuns.StateFollowsPlayPause | src/main/sequencer.js:184-190 | After any run, the state is the one the last `play` / `pause` call asked for, compared against an independent reference definition. So the state stays `pristine` until the first such call, and never becomes `stopped`. |
| Player.New | src/main/player.js:28-31 | A new player has no audio gain (`null`) and no fade in progress. |
| Player.Mute | src/main/player.js:33-36 | `mute()` sets opacity and volume to 0, and leaves the current time and duration. |
| Player.VolumeMaxFollowsGain | src/main/player.js:51 | The fade-in target volume (`Player.VolumeMax`) is 0 on a new player, whose gain is `null`. After `play`, it is the configured gain, or 1, times 100. |
| Player.StartFading | src/main/player.js:48-86 | A fade stops the fade in progress, if any, and starts from the adapter's current opacity and volume. With no fade in progress it starts from 0/0 for a fade-in, or from 1 and the gain's volume for a fade-out. It goes to opacity 1 and volume `audioGain * 100` for a fade-in, or to 0/0 for a fade-out. It becomes the fade in progress under a fresh handle. |
| Player.FadeDone | src/main/player.js:89-99 | When a fade completes, the fade reference is cleared and nothing else in the player changes. A fade-out mutes the adapter, so opacity and volume are 0 while time and duration stay. A fade-in leaves the adapter as it is. |
| Player.FadeIn | src/main/player.js:138-140 | `fadeIn` is `fade(true, duration)` and returns nothing. It stops the fade in progress, if any, and then starts a fade-in under a fresh handle. The fade-in runs from the adapter's current opacity and volume, or from 0/0 when no fade is in progress, to opacity 1 and volume `audioGain * 100`. |
| Player.FadeOut | src/main/player.js:146-148 | `fadeOut` is `fade(false, duration)` and returns the completion of that fade. It stops the fade in progress, if any, and then starts a fade-out under a fresh handle. The fade-out runs from the adapter's current opacity and volume, or from opacity 1 and volume `audioGain * 100` when no fade is in progress, to 0/0. |
| Player.LoadById | src/main/player.js:102-104 | `loadById` only delegates to the adapter. |
| Player.Play | src/main/player.js:109-115 | `play` throws without calling the adapter when the configuration is absent. Otherwise the audio gain is the configured number, or 1, the adapter plays, and nothing else changes. |
| Player.Pause | src/main/player.js:117-122 | `pause` pauses the fade in progress, if any, and then the adapter, and changes nothing in the player. |
| Player.Resume | src/main/player.js:124-129 | `resume` plays the adapter and then resumes the fade in progress, if any. |
| Player.Stop | src/main/player.js:131-133 | `stop` only stops the adapter. |
| Player.Duration | src/main/player.js:161-168 | A negative debug duration reports the adapter's duration. Otherwise the result is at most the debug duration, at most the adapter's duration, and equal to one of them (the minimum). |
| Player.ResumeMirrorsPause | src/main/player.js:117-129 | `resume`'s calls undo `pause`'s one by one in reverse order. |
| Player.FadeInAfterPlayReachesGain | src/main/player.js:48-84 | After `play(config)`, a fade-in targets full opacity and `gain * 100`, where the gain is the configured one or 1. |
| Player.FadeInBeforePlayIsSilent | src/main/player.js:28-53 | Before the first `play`, the gain is `null`, so a fade-in goes from 0 to volume 0. |
| Player.FadeOutEndsMuted | src/main/player.js:86-99 | Once the fade returned by `fadeOut` completes, the player is transparent and silent, and no fade is in progress. |
| Player.RestartedFadeContinues | src/main/player.js:55-61 | A fade started during another stops exactly that one and continues from the opacity and volume it reached, under a new handle. |
| PlayerFactory.CanCreatePlayer | src/main/playerFactory.js:37-44 | True exactly for `youtube` and `vimeo`. |
| PlayerFactory.NewPlayer | src/main/playerFactory.js:50-69 | `newPlayer` throws, building nothing, exactly for unsupported providers. Otherwise it builds that provider's adapter with the factory's element producer and, as written, the debug object `{duration: quality}`. The player reports the requested provider and the factory's debug duration, and starts with no gain and no fade. |
| PlayerFactory.NewPlayerCorrected | src/main/playerFactory.js:55-60 | Corrected `newPlayer`: it fails exactly when `newPlayer` does, and otherwise builds the same adapter and player, except that the debug object carries the quality under `quality`. |
| PlayerFactory.BuiltPlayerReportsProvider | src/main/playerFactory.js:62-68 | A built player's `provider` getter returns the requested provider, its `currentTime` the adapter's, and its `duration` is clamped by the factory's debug duration. |
| PlayerFactory.AdapterDebugAsWritten | src/main/playerFactory.js:57-59 | As written, the adapter's debug object has only a `duration` field, and it holds the configured quality. |
| PlayerFactory.AdapterDebug | src/main/playerFactory.js:55-60 | Corrected: the adapter's debug object carries the configured quality under `quality`. |
| PlayerFactory.YoutubeQuality | src/main/nativePlayerAdapterYoutube.js:26-27 | The YouTube adapter plays at `small` exactly when its debug object's `quality` is `low`, and at `default` otherwise. |
| PlayerFactory.AsWrittenQualityIgnored | src/main/playerFactory.js:57-59 | With the debug object as written, every configured quality ends up as `default`. |
| PlayerFactory.AsWrittenLowQualityLost | src/main/playerFactory.js:57-59 | The input that shows it: a YouTube player built by a factory configured with quality `low` does not play at `small`. |
| PlayerFactory.BuiltYoutubeIgnoresQuality | src/main/playerFactory.js:57-59 | A YouTube player built as written always plays at `default`, whatever quality the factory is configured with. |
| PlayerFactory.QualityHonoured | src/main/nativePlayerAdapterYoutube.js:9-12 | With the corrected debug object, `low` gives `small` and any other quality gives `default`. |
| PlayerFactory.CorrectedYoutubeHonoursQuality | src/main/nativePlayerAdapterYoutube.js:26-27 | A YouTube player built by the corrected `newPlayer` plays at `small` exactly when the configured quality is `low`, and at `default` otherwise. |

## Left out

- **Native adapters** (`nativePlayerAdapterYoutube.js`, `nativePlayerAdapterVimeo.js`, `playerVimeo.js`): these are DOM, iframe and messaging plumbing. An adapter is its kind, its configuration and the values the player reads and writes. The one exception is the YouTube quality lookup.
- **Players pool and playback slot:** not part of this model. A slot is an id plus the calls it receives. Its `video` is a function of its entry, given in the configuration.
- **`singleton`, `collection`, `enumeration` and `promiseDone`:** not part of this model. Their assumed behaviour is stated above.
- **Rejected promises:** a rejected load or end never produces its completion event. The rethrow in `promiseDone` is not modelled.
- **One load per slot:** the continuations `skip` and `move` attached to a slot's loads all run on that slot's single load-resolution event. Slots are assumed to resolve repeated `load()` calls together.
- **Behaviour outside `sequencer.js`:** `stop`, `checkNextEntry`, the retry after a failed load, and the `stateChanged` / `loadingChanged` / `playingChanged` callbacks appear in the repository's sequencer tests but not in `sequencer.js`. The model follows `sequencer.js`.
- **Tests that disagree with the code:** the sequencer tests expect suspension while `pristine`, and `comingNext` arguments that are entries starting with null. The model follows `sequencer.js`: it suspends only while `paused`, and reports videos.
- **Fade animation curves and the per-frame step callbacks:** a fade is a handle that later completes. The adapter's opacity and volume are inputs when a fade starts. The `parseFloat` of the opacity is not modelled.
- **Numbers:** they are reals. `NaN` (which lodash's `isNumber` accepts, and which `Math.min` propagates) is not modelled. An `audioGain` that is not a number is `None`.
- **PlayerFactory.CanCreatePlayer:** treats the provider as a plain key. Lodash's `has` would also accept property paths such as `youtube.length`, which `newPlayer` would then fail to call; lodash is not part of this model.
- **Player.Provider and Player.CurrentTime:** plain field reads with no contract of their own. What they return is stated by `PlayerFactory.BuiltPlayerReportsProvider`.
- **Player.FadeDone:** may be applied to any fade, as in the source, which clears the reference whichever fade completed. Whether a stopped group's promise still resolves depends on `animationGroup`, which is not part of this model.

## Findings

| source | as written | input that shows it | evidently intended | confidence | as-written member | corrected member |
|---|---|---|---|---|---|---|
| src/main/playerFactory.js:57-59 | The adapter is given `debug: {duration: _config.debug.quality}`. The YouTube adapter reads `config.debug.quality` (src/main/nativePlayerAdapterYoutube.js:26-27), and the typedefs document `debug: {quality: string}`. | Provider `youtube` with `debug.quality == 'low'`: the adapter finds no `quality` and plays at `default`, not `small`. | `debug: {quality: _config.debug.quality}`, so that `low` maps to `small`. | high; not executed | PlayerFactory.AsWrittenLowQualityLost | PlayerFactory.CorrectedYoutubeHonoursQuality |

`PlayerFactory.NewPlayer` models the code as written. `PlayerFactory.NewPlayerCorrected` is the same operation with the debug object fixed.

=== FILE: player.dfy ===
/**
 * The player facade over a native player adapter: play configuration, the audio gain,
 * the debug duration clamp, and the bookkeeping of the fade animation in progress.
 *
 * The adapter is reduced to the values the player reads and writes (current time,
 * duration, volume, and the opacity of its element), and every call the player makes
 * on it or on a fade animation group is recorded in a trace. A fade animation group is
 * an abstract handle; its completion is an explicit event.
 */
module Player {
  import opened Wrappers

  /** What the player can observe of and write to its native adapter. */
  datatype Adapter = Adapter(currentTime: real, duration: real, volume: real, opacity: real)

  /** The player's own configuration: the provider name and the forced debug duration. */
  datatype PlayerConfig = PlayerConfig(provider: string, debugDuration: real)

  /** A fade animation group that has been started, and whether it fades in or out. */
  datatype Fade = Fade(handle: nat, fadeIn: bool)

  /**
   * A player. `audioGain` is `None` until the first `play` (the source's `null`),
   * `fading` is the fade in progress, and `nextHandle` names the next fade group.
   */
  datatype Player = Player(
    config: PlayerConfig,
    adapter: Adapter,
    audioGain: Option<real>,
    fading: Option<Fade>,
    nextHandle: nat)

  /** A call the player makes on its adapter or on a fade animation group. */
  datatype Call =
    | LoadVideoById(id: string)
    | PlayVideo
    | PauseVideo
    | StopVideo
    | StartFade(handle: nat, duration: real, opacityFrom: real, opacityTo: real, volumeFrom: real, volumeTo: real)
    | StopFade(handle: nat)
    | PauseFade(handle: nat)
    | ResumeFade(handle: nat)

  /** The player after an operation, and the calls the operation made, in order. */
  datatype Out = Out(p: Player, calls: seq<Call>)

  /** A fade that was started, and the fade whose completion the returned promise waits for. */
  datatype Started = Started(out: Out, done: Fade)

  /** The argument of `play`; an `audioGain` that is not a number is `None`. */
  datatype PlayConfig = PlayConfig(audioGain: Option<real>)

  datatype Error = MissingConfig

  /** A new player over an adapter: no audio gain yet and no fade in progress. */
  function New(config: PlayerConfig, adapter: Adapter): (p: Player)
    ensures p.config == config && p.adapter == adapter
    ensures p.audioGain.None? && p.fading.None?
  {
    Player(config, adapter, None, None, 0)
  }

  /** `mute()`: the element turns transparent and the volume drops to zero. */
  function Mute(a: Adapter): (r: Adapter)
    ensures r.opacity == 0.0 && r.volume == 0.0
    ensures r.currentTime == a.currentTime && r.duration == a.duration
  {
    a.(opacity := 0.0, volume := 0.0)
  }

  /**
   * The volume a fade-in reaches: the audio gain on the adapter's 0..100 scale. Before
   * the first `play` the gain is `null`, which multiplies to 0.
   */
  function VolumeMax(p: Player): real {
    if p.audioGain.Some? then p.audioGain.value * 100.0 else 0.0
  }

  /**
   * `fade(fadeIn, duration)`: stops the fade in progress, if any, and starts a new one
   * from the adapter's current opacity and volume; with none in progress it starts from
   * transparent and silent for a fade-in, and from opaque at full volume for a fade-out.
   * The returned `done` is the fade whose completion the source's promise waits for.
   */
  function StartFading(p: Player, fadeIn: bool, duration: real): (r: Started)
    ensures r.done == Fade(p.nextHandle, fadeIn)
    ensures r.out.p == p.(fading := Some(r.done), nextHandle := p.nextHandle + 1)
    ensures |r.out.calls| == if p.fading.Some? then 2 else 1
    ensures p.fading.Some? ==> r.out.calls[0] == StopFade(p.fading.value.handle)
    ensures var c := r.out.calls[|r.out.calls| - 1];
      && c.StartFade? && c.handle == p.nextHandle && c.duration == duration
      && c.opacityTo == (if fadeIn then 1.0 else 0.0)
      && c.volumeTo == (if fadeIn then VolumeMax(p) else 0.0)
      && (p.fading.Some? ==> c.opacityFrom == p.adapter.opacity && c.volumeFrom == p.adapter.volume)
      && (p.fading.None? ==>
            c.opacityFrom == (if fadeIn then 0.0 else 1.0) && c.volumeFrom == (if fadeIn then 0.0 else VolumeMax(p)))
  {
    var volumeMax := VolumeMax(p);
    var stop := if p.fading.Some? then [StopFade(p.fading.value.handle)] else [];
    var opacityFrom := if p.fading.Some? then p.adapter.opacity else if fadeIn then 0.0 else 1.0;
    var volumeFrom := if p.fading.Some? then p.adapter.volume else if fadeIn then 0.0 else volumeMax;
    var h := p.nextHandle;
    var start := StartFade(h, duration, opacityFrom, if fadeIn then 1.0 else 0.0, volumeFrom, if fadeIn then volumeMax else 0.0);
    var done := Fade(h, fadeIn);
    Started(Out(p.(fading := Some(done), nextHandle := h + 1), stop + [start]), done)
  }

  /**
   * The completion of fade `f`'s volume animation: a fade-out leaves the player fully
   * muted, and the fade reference is cleared.
   */
  function FadeDone(p: Player, f: Fade): (r: Player)
    ensures r.fading.None?
    ensures !f.fadeIn ==> r.adapter.opacity == 0.0 && r.adapter.volume == 0.0
    ensures f.fadeIn ==> r.adapter == p.adapter
    ensures r.config == p.config && r.audioGain == p.audioGain
    ensures r == p.(adapter := r.adapter, fading := None)
    ensures !f.fadeIn ==> r.adapter == Mute(p.adapter)
  {
    p.(adapter := if f.fadeIn then p.adapter else Mute(p.adapter), fading := None)
  }

  /** `fadeIn({duration})`: starts a fade-in; it returns nothing. */
  function FadeIn(p: Player, duration: real): (r: Out)
    ensures r == StartFading(p, true, duration).out
    ensures r.p.fading == Some(Fade(p.nextHandle, true))
    ensures |r.calls| == if p.fading.Some? then 2 else 1
    ensures p.fading.Some? ==> r.calls[0] == StopFade(p.fading.value.handle)
    ensures var c := r.calls[|r.calls| - 1];
      && c.StartFade? && c.handle == p.nextHandle && c.duration == duration
      && c.opacityTo == 1.0 && c.volumeTo == VolumeMax(p)
      && c.opacityFrom == (if p.fading.Some? then p.adapter.opacity else 0.0)
      && c.volumeFrom == (if p.fading.Some? then p.adapter.volume else 0.0)
  {
    StartFading(p, true, duration).out
  }

  /** `fadeOut({duration})`: starts a fade-out and returns the promise of its completion. */
  function FadeOut(p: Player, duration: real): (r: Started)
    ensures r == StartFading(p, false, duration)
    ensures r.done == Fade(p.nextHandle, false) && r.out.p.fading == Some(r.done)
    ensures |r.out.calls| == if p.fading.Some? then 2 else 1
    ensures p.fading.Some? ==> r.out.calls[0] == StopFade(p.fading.value.handle)
    ensures var c := r.out.calls[|r.out.calls| - 1];
      && c.StartFade? && c.handle == p.nextHandle && c.duration == duration
      && c.opacityTo == 0.0 && c.volumeTo == 0.0
      && c.opacityFrom == (if p.fading.Some? then p.adapter.opacity else 1.0)
      && c.volumeFrom == (if p.fading.Some? then p.adapter.volume else VolumeMax(p))
  {
    StartFading(p, false, duration)
  }

  /**
   * `loadById(id)`: a pure delegation to the adapter. The player is untouched and the one
   * adapter call is the whole behaviour, so the contract says exactly that.
   */
  function LoadById(p: Player, id: string): (r: Out)
    ensures r.p == p && r.calls == [LoadVideoById(id)]
  {
    Out(p, [LoadVideoById(id)])
  }

  /**
   * `play(config)`: throws without touching the adapter when the configuration is
   * absent; otherwise the audio gain becomes the configured number, or 1, and the
   * adapter plays.
   */
  function Play(p: Player, config: Option<PlayConfig>): (r: Result<Out, Error>)
    ensures r.Failure? <==> config.None?
    ensures r.Failure? ==> r.error == MissingConfig
    ensures r.Success? ==>
      && r.value.calls == [PlayVideo]
      && r.value.p.audioGain.Some?
      && (config.value.audioGain.Some? ==> r.value.p.audioGain.value == config.value.audioGain.value)
      && (config.value.audioGain.None? ==> r.value.p.audioGain.value == 1.0)
      && r.value.p == p.(audioGain := r.value.p.audioGain)
  {
    if config.None? then Failure(MissingConfig)
    else
      var gain := if config.value.audioGain.Some? then config.value.audioGain.value else 1.0;
      Success(Out(p.(audioGain := Some(gain)), [PlayVideo]))
  }

  /** `pause()`: pauses the fade in progress, if any, then the adapter. */
  function Pause(p: Player): (r: Out)
    ensures r.p == p
    ensures |r.calls| == if p.fading.Some? then 2 else 1
    ensures r.calls[|r.calls| - 1] == PauseVideo
    ensures p.fading.Some? ==> r.calls[0] == PauseFade(p.fading.value.handle)
  {
    Out(p, (if p.fading.Some? then [PauseFade(p.fading.value.handle)] else []) + [PauseVideo])
  }

  /** `resume()`: plays the adapter, then resumes the fade in progress, if any. */
  function Resume(p: Player): (r: Out)
    ensures r.p == p
    ensures |r.calls| == if p.fading.Some? then 2 else 1
    ensures r.calls[0] == PlayVideo
    ensures p.fading.Some? ==> r.calls[1] == ResumeFade(p.fading.value.handle)
  {
    Out(p, [PlayVideo] + (if p.fading.Some? then [ResumeFade(p.fading.value.handle)] else []))
  }

  /**
   * `stop()`: a pure delegation to the adapter. The player is untouched and the one
   * adapter call is the whole behaviour, so the contract says exactly that.
   */
  function Stop(p: Player): (r: Out)
    ensures r.p == p && r.calls == [StopVideo]
  {
    Out(p, [StopVideo])
  }

  function Provider(p: Player): string {
    p.config.provider
  }

  function CurrentTime(p: Player): real {
    p.adapter.currentTime
  }

  /**
   * The `duration` getter: a negative debug duration means none is forced, and the
   * adapter's duration is reported; otherwise the smaller of the two.
   */
  function Duration(p: Player): (d: real)
    ensures p.config.debugDuration < 0.0 ==> d == p.adapter.duration
    ensures 0.0 <= p.config.debugDuration ==>
      && d <= p.config.debugDuration && d <= p.adapter.duration
      && (d == p.config.debugDuration || d == p.adapter.duration)
  {
    var actual := p.adapter.duration;
    if p.config.debugDuration < 0.0 then actual
    else if p.config.debugDuration <= actual then p.config.debugDuration else actual
  }

  // ---------------------------------------------------------------------------
  // properties

  /** The call that undoes `c` on the way back from a pause. */
  function Undo(c: Call): Call {
    match c
    case PauseVideo => PlayVideo
    case PauseFade(h) => ResumeFade(h)
    case _ => c
  }

  /** The calls that undo `cs`, in reverse order. */
  function UndoAll(cs: seq<Call>): (u: seq<Call>)
    ensures |u| == |cs|
    ensures forall i :: 0 <= i < |cs| ==> u[i] == Undo(cs[|cs| - 1 - i])
  {
    if |cs| == 0 then [] else UndoAll(cs[1..]) + [Undo(cs[0])]
  }

  /**
   * `resume` undoes `pause` call by call in reverse order: the adapter plays again
   * before the fade in progress is resumed, and neither changes the player.
   */
  lemma ResumeMirrorsPause(p: Player)
    ensures Resume(p).calls == UndoAll(Pause(p).calls)
    ensures Pause(p).p == p && Resume(p).p == p
  {
    var cs := Pause(p).calls;
    if p.fading.Some? {
      assert cs == [PauseFade(p.fading.value.handle), PauseVideo];
      assert cs[1..] == [PauseVideo];
      assert cs[1..][1..] == [];
    } else {
      assert cs == [PauseVideo];
      assert cs[1..] == [];
    }
  }

  /**
   * After `play(config)`, a fade-in raises the volume to the audio gain on the 0..100
   * scale: the configured gain when it is a number, and full volume otherwise.
   */
  lemma FadeInAfterPlayReachesGain(p: Player, config: PlayConfig, duration: real)
    ensures var q := Play(p, Some(config)).value.p;
      var c := FadeIn(q, duration).calls;
      var gain := if config.audioGain.Some? then config.audioGain.value else 1.0;
      c[|c| - 1].StartFade? && c[|c| - 1].volumeTo == gain * 100.0 && c[|c| - 1].opacityTo == 1.0
  {
    var q := Play(p, Some(config)).value.p;
    var s := StartFading(q, true, duration);
    assert FadeIn(q, duration) == s.out;
  }

  /**
   * The fade-in target volume follows the audio gain: 0 on a new player, whose gain
   * is `null`, and the configured gain (or 1) times 100 once `play` has run.
   */
  lemma VolumeMaxFollowsGain(config: PlayerConfig, adapter: Adapter, p: Player, pc: PlayConfig)
    ensures VolumeMax(New(config, adapter)) == 0.0
    ensures VolumeMax(Play(p, Some(pc)).value.p) == (if pc.audioGain.Some? then pc.audioGain.value else 1.0) * 100.0
  {
  }

  /** Before the first `play` there is no audio gain, so a fade-in stays silent. */
  lemma FadeInBeforePlayIsSilent(config: PlayerConfig, adapter: Adapter, duration: real)
    ensures var c := FadeIn(New(config, adapter), duration).calls;
      c == [StartFade(0, duration, 0.0, 1.0, 0.0, 0.0)]
  {
  }

  /**
   * Once the fade-out that `fadeOut` returned completes, the player is transparent and
   * silent and no fade is in progress, whatever was fading before.
   */
  lemma FadeOutEndsMuted(p: Player, duration: real)
    ensures var s := FadeOut(p, duration);
      var q := FadeDone(s.out.p, s.done);
      && q.adapter.opacity == 0.0 && q.adapter.volume == 0.0
      && q.fading.None?
      && q.audioGain == p.audioGain
  {
  }

  /**
   * A fade started while another is in progress stops exactly that one and continues
   * from where it left the opacity and the volume, under a fresh handle.
   */
  lemma RestartedFadeContinues(p: Player, firstIn: bool, d1: real, secondIn: bool, d2: real, a: Adapter)
    ensures var s1 := StartFading(p, firstIn, d1);
      var mid := s1.out.p.(adapter := a);
      var s2 := StartFading(mid, secondIn, d2);
      && s2.out.calls[0] == StopFade(s1.done.handle)
      && s2.out.calls[1].StartFade?
      && s2.out.calls[1].opacityFrom == a.opacity
      && s2.out.calls[1].volumeFrom == a.volume
      && s2.done.handle != s1.done.handle
      && s2.out.p.fading == Some(s2.done)
  {
  }
}

=== FILE: player_factory.dfy ===
/**
 * The player factory: which providers it can build a player for, the native adapter
 * it builds for each, and the configuration it hands to the adapter and the player.
 *
 * The adapters themselves (the YouTube and Vimeo iframe players) are outside this
 * model; a built adapter is represented by its kind and the configuration it was given,
 * and its observable state is a parameter. The one piece of the YouTube adapter that
 * the factory's configuration feeds, its quality lookup, is modelled here.
 */
module PlayerFactory {
  import opened Wrappers
  import Player

  /** The native adapters the factory knows. */
  datatype AdapterKind = Youtube | Vimeo

  /** The factory's debug settings: a forced media duration and a forced quality. */
  datatype Debug = Debug(duration: real, quality: string)

  /** The factory's configuration; the element producer is opaque. */
  datatype FactoryConfig<El> = FactoryConfig(elementProducer: El, debug: Debug)

  /**
   * The configuration handed to an adapter: the element producer, and a debug object
   * given as its fields by name.
   */
  datatype AdapterConfig<El> = AdapterConfig(elementProducer: El, debug: map<string, string>)

  /** A player built by the factory, with the adapter built for it. */
  datatype Built<El> = Built(kind: AdapterKind, adapterConfig: AdapterConfig<El>, player: Player.Player)

  datatype Error = UnsupportedProvider(provider: string)

  /** `_adapterFactories`: the provider names with an adapter, and the adapter for each. */
  const AdapterFactories: map<string, AdapterKind> := map["youtube" := Youtube, "vimeo" := Vimeo]

  /** `canCreatePlayer(provider)`: whether an adapter is registered under that name. */
  function CanCreatePlayer(provider: string): (b: bool)
    ensures b <==> provider == "youtube" || provider == "vimeo"
  {
    provider in AdapterFactories
  }

  /**
   * The debug object `newPlayer` hands to the adapter, as written: its only field is
   * `duration`, and it holds the configured quality.
   */
  function AdapterDebugAsWritten(d: Debug): (m: map<string, string>)
    ensures m.Keys == {"duration"} && m["duration"] == d.quality
  {
    map["duration" := d.quality]
  }

  /** The debug object the adapters read: the configured quality under `quality`. */
  function AdapterDebug(d: Debug): (m: map<string, string>)
    ensures m.Keys == {"quality"} && m["quality"] == d.quality
  {
    map["quality" := d.quality]
  }

  /** The YouTube adapter's forced-quality table: only these two values are known. */
  const DebugQualityMappings: map<string, string> := map["low" := "small", "default" := "default"]

  /**
   * The playback quality the YouTube adapter derives from its debug object: the
   * mapping of `debug.quality` when there is one, and `default` otherwise.
   */
  function YoutubeQuality(debug: map<string, string>): (q: string)
    ensures q == "small" <==> "quality" in debug && debug["quality"] == "low"
    ensures q == "small" || q == "default"
  {
    if "quality" in debug && debug["quality"] in DebugQualityMappings then DebugQualityMappings[debug["quality"]]
    else "default"
  }

  /**
   * `newPlayer(provider)`: throws for a provider with no adapter, before building
   * anything; otherwise builds that provider's adapter with the factory's element
   * producer and, as written, a debug object whose only field `duration` holds the
   * configured quality, and a fresh player over it that reports the provider and is
   * clamped to the factory's debug duration. `adapter` is the state of the built adapter.
   */
  function NewPlayer<El>(config: FactoryConfig<El>, provider: string, adapter: Player.Adapter): (r: Result<Built<El>, Error>)
    ensures r.Failure? <==> !CanCreatePlayer(provider)
    ensures r.Failure? ==> r.error == UnsupportedProvider(provider)
    ensures r.Success? ==>
      && r.value.kind == (if provider == "youtube" then Youtube else Vimeo)
      && r.value.adapterConfig.elementProducer == config.elementProducer
      && r.value.adapterConfig.debug == AdapterDebugAsWritten(config.debug)
      && r.value.player.config == Player.PlayerConfig(provider, config.debug.duration)
      && r.value.player.adapter == adapter
      && r.value.player.audioGain.None? && r.value.player.fading.None?
  {
    if !CanCreatePlayer(provider) then Failure(UnsupportedProvider(provider))
    else
      var kind := AdapterFactories[provider];
      var adapterConfig := AdapterConfig(config.elementProducer, AdapterDebugAsWritten(config.debug));
      Success(Built(kind, adapterConfig, Player.New(Player.PlayerConfig(provider, config.debug.duration), adapter)))
  }

  /**
   * `newPlayer` as evidently intended: the same, except that the adapter's debug
   * object carries the configured quality under `quality`.
   */
  function NewPlayerCorrected<El>(config: FactoryConfig<El>, provider: string, adapter: Player.Adapter): (r: Result<Built<El>, Error>)
    ensures r.Failure? <==> NewPlayer(config, provider, adapter).Failure?
    ensures r.Failure? ==> r == NewPlayer(config, provider, adapter)
    ensures r.Success? ==>
      var b := NewPlayer(config, provider, adapter).value;
      && r.value.adapterConfig.debug == AdapterDebug(config.debug)
      && r.value == b.(adapterConfig := b.adapterConfig.(debug := r.value.adapterConfig.debug))
  {
    var b := NewPlayer(config, provider, adapter);
    if b.Failure? then b
    else Success(b.value.(adapterConfig := b.value.adapterConfig.(debug := AdapterDebug(config.debug))))
  }

  // ---------------------------------------------------------------------------
  // properties

  /**
   * A built player reports the requested provider, and its duration is the adapter's
   * clamped to the factory's debug duration when that is not negative.
   */
  lemma BuiltPlayerReportsProvider<El>(config: FactoryConfig<El>, provider: string, adapter: Player.Adapter)
    requires CanCreatePlayer(provider)
    ensures var p := NewPlayer(config, provider, adapter).value.player;
      && Player.Provider(p) == provider
      && Player.CurrentTime(p) == adapter.currentTime
      && (config.debug.duration < 0.0 ==> Player.Duration(p) == adapter.duration)
      && (0.0 <= config.debug.duration ==> Player.Duration(p) <= config.debug.duration)
  {
    var p := NewPlayer(config, provider, adapter).value.player;
    assert p.config.debugDuration == config.debug.duration;
  }

  /**
   * As written, the quality never reaches the YouTube adapter: it reads `quality` from
   * a debug object that only has `duration`, so every quality falls back to `default`.
   */
  lemma AsWrittenQualityIgnored(d: Debug)
    ensures YoutubeQuality(AdapterDebugAsWritten(d)) == "default"
  {
    assert "quality" !in AdapterDebugAsWritten(d);
  }

  /**
   * The input that shows it: a YouTube player built by a factory configured with the
   * documented `low` quality does not play at `small`.
   */
  lemma AsWrittenLowQualityLost<El>(producer: El, adapter: Player.Adapter)
    ensures var r := NewPlayer(FactoryConfig(producer, Debug(-1.0, "low")), "youtube", adapter);
      r.Success? && YoutubeQuality(r.value.adapterConfig.debug) != "small"
  {
    AsWrittenQualityIgnored(Debug(-1.0, "low"));
  }

  /**
   * A YouTube player built as written always plays at `default`: whatever quality the
   * factory is configured with, it never reaches the adapter.
   */
  lemma BuiltYoutubeIgnoresQuality<El>(config: FactoryConfig<El>, adapter: Player.Adapter)
    ensures var r := NewPlayer(config, "youtube", adapter);
      && r.Success? && r.value.kind == Youtube
      && YoutubeQuality(r.value.adapterConfig.debug) == "default"
  {
    AsWrittenQualityIgnored(config.debug);
  }

  /** A YouTube player built as intended plays at `small` exactly when the quality is `low`. */
  lemma CorrectedYoutubeHonoursQuality<El>(config: FactoryConfig<El>, adapter: Player.Adapter)
    ensures var r := NewPlayerCorrected(config, "youtube", adapter);
      && r.Success? && r.value.kind == Youtube
      && YoutubeQuality(r.value.adapterConfig.debug) == (if config.debug.quality == "low" then "small" else "default")
  {
    QualityHonoured(config.debug);
  }

  /**
   * With the corrected debug object the YouTube adapter honours the configured quality:
   * `low` becomes `small`, and anything else `default`.
   */
  lemma QualityHonoured(d: Debug)
    ensures YoutubeQuality(AdapterDebug(d)) == (if d.quality == "low" then "small" else "default")
  {
  }
}

=== FILE: sequencer.dfy ===
/**
 * The playback sequencer (src/main/sequencer.js): a global play/pause state, three
 * singleton role references (preloading, skipping, playing) and a collection of
 * ending slots that are draining. Slots are identified by their creation index;
 * every call the sequencer makes on a slot, and every call into its configuration,
 * is recorded as an effect.
 *
 * The `singleton`, `collection` and `enumeration` helpers are not part of this model.
 * Their behaviour is taken to be:
 *   - singleton `set(x)` stores x, then calls `changedListener(prev, x)` (also when prev == x);
 *   - singleton `clear()` empties the reference without calling the listener;
 *   - collection `add(x)` appends x, then calls `addedListener(x)`;
 *   - collection `remove(x)` drops x, and `forEach` visits the elements in insertion order.
 */
module PlaybackSequencer {
  import opened Wrappers

  /** A playback slot, named by the order in which the sequencer created it. */
  type SlotId = nat

  /** The global play/pause intent (`States`). */
  datatype GlobalState = Pristine | Playing | Paused | Stopped

  /**
   * The injected collaborators: `nextEntryProducer`, and the video a slot carries
   * for its entry (read by `notifyComingNext` as `slot.video`).
   */
  datatype Config<!E, V> = Config(nextEntry: E -> Option<E>, video: E -> V)

  /** Observable calls, in the order the sequencer makes them. */
  datatype Effect<E, V> =
    | Create(slot: SlotId, entry: E)          // playbackSlotProducer({entry, endingSoon, ending})
    | Load(slot: SlotId)
    | Start(slot: SlotId)
    | End(slot: SlotId)
    | Proceed(slot: SlotId)
    | Suspend(slot: SlotId)
    | AskNext(after: E)                       // nextEntryProducer(after)
    | ComingNext(current: V, next: Option<V>) // config.comingNext(current, next)

  /**
   * The sequencer's whole state. `ending` is the collection of draining slots in
   * insertion order; `moveWaiting` holds the slots on whose load a `move`
   * continuation is still pending; `entries[i]` is the entry slot i was created for.
   */
  datatype Sequencer<E> = Sequencer(
    state: GlobalState,
    preloading: Option<SlotId>,
    skipping: Option<SlotId>,
    playing: Option<SlotId>,
    ending: seq<SlotId>,
    moveWaiting: set<SlotId>,
    entries: seq<E>)

  /** A new state together with the effects produced while reaching it. */
  datatype Out<E, V> = Out(sq: Sequencer<E>, fx: seq<Effect<E, V>>)

  /** The `TypeError`s the sequencer throws. */
  datatype Error =
    | MissingEntry     // skip / preload called with an absent entry
    | NoPlayingSlot    // notifyComingNext dereferences an empty playing reference

  /** Inputs the outside world can feed the sequencer, including async completions. */
  datatype Event<E> =
    | CallPlay
    | CallPause
    | CallSkip(entry: Option<E>)
    | CueEndingSoon              // some slot's endingSoon cue: notifyComingNext
    | CueEnding                  // some slot's ending cue: move
    | LoadDone(slot: SlotId)     // the continuations attached to this slot's load() run
    | EndDone(slot: SlotId)      // the continuation attached to this slot's end() runs

  // ---------------------------------------------------------------------------
  // Roles and the invariant

  predicate InRole<E>(sq: Sequencer<E>, n: SlotId) {
    sq.preloading == Some(n) || sq.skipping == Some(n) || sq.playing == Some(n)
  }

  /** The slots `forEachSlot` visits. */
  predicate IsTracked<E>(sq: Sequencer<E>, n: SlotId) {
    InRole(sq, n) || n in sq.ending
  }

  predicate NoDup<T(==)>(xs: seq<T>) {
    forall i, j :: 0 <= i < j < |xs| ==> xs[i] != xs[j]
  }

  predicate Apart(a: Option<SlotId>, b: Option<SlotId>) {
    a.None? || a != b
  }

  predicate Below(a: Option<SlotId>, bound: nat) {
    a.None? || a.value < bound
  }

  /** Every slot the sequencer refers to has been created. */
  ghost predicate Valid<E>(sq: Sequencer<E>) {
    && Below(sq.preloading, |sq.entries|)
    && Below(sq.skipping, |sq.entries|)
    && Below(sq.playing, |sq.entries|)
    && (forall i :: 0 <= i < |sq.ending| ==> sq.ending[i] < |sq.entries|)
  }

  /**
   * What holds between operations: every referenced slot exists, each slot holds
   * at most one role, ending slots hold none and appear once, and no skipping
   * slot has a pending `move` continuation.
   */
  ghost predicate Inv<E>(sq: Sequencer<E>) {
    && Valid(sq)
    && (forall n: SlotId :: n in sq.moveWaiting ==> n < |sq.entries|)
    && Apart(sq.preloading, sq.skipping)
    && Apart(sq.preloading, sq.playing)
    && Apart(sq.skipping, sq.playing)
    && NoDup(sq.ending)
    && (forall n: SlotId :: n in sq.ending ==> !InRole(sq, n))
    && (sq.skipping.Some? ==> sq.skipping.value !in sq.moveWaiting)
  }

  /** A freshly constructed sequencer. */
  function Init<E>(): (sq: Sequencer<E>)
    ensures sq.state == Pristine
    ensures forall n: SlotId :: !IsTracked(sq, n)
    ensures Inv(sq)
  {
    Sequencer(Pristine, None, None, None, [], {}, [])
  }

  // ---------------------------------------------------------------------------
  // Listeners of the singletons and of the ending collection

  /** `forEachSlot`: preloading, skipping, playing, then the ending slots. */
  function Tracked<E>(sq: Sequencer<E>): seq<SlotId> {
    OptionToSeq(sq.preloading) + OptionToSeq(sq.skipping) + OptionToSeq(sq.playing) + sq.ending
  }

  /** `proceed()` (or `suspend()`) on each of `ids`, in order. */
  function Notify<E, V>(ids: seq<SlotId>, proceed: bool): (fx: seq<Effect<E, V>>)
    ensures |fx| == |ids|
    ensures forall i :: 0 <= i < |ids| ==> fx[i] == (if proceed then Proceed(ids[i]) else Suspend(ids[i]))
  {
    if |ids| == 0 then []
    else [if proceed then Proceed(ids[0]) else Suspend(ids[0])] + Notify(ids[1..], proceed)
  }

  /** `_state.set(s)` and its changed listener. */
  function SetState<E, V>(o: Out<E, V>, s: GlobalState): Out<E, V> {
    var sq := o.sq.(state := s);
    if s == Playing then Out(sq, o.fx + Notify(Tracked(o.sq), true))
    else if s == Paused then Out(sq, o.fx + Notify(Tracked(o.sq), false))
    else Out(sq, o.fx)
  }

  /** `_endingSlots.add(s)`: the added listener ends the slot straight away. */
  function AddEnding<E, V>(o: Out<E, V>, s: SlotId): Out<E, V> {
    Out(o.sq.(ending := o.sq.ending + [s]), o.fx + [End(s)])
  }

  /** `_preloadingSlot.set(x)`: ends the previous slot (without tracking it) and loads the new one. */
  function SetPreloading<E, V>(o: Out<E, V>, x: Option<SlotId>): Out<E, V> {
    var prev := o.sq.preloading;
    var fx := o.fx + (if prev.Some? then [End(prev.value)] else []);
    Out(o.sq.(preloading := x), fx + (if x.Some? then [Load(x.value)] else []))
  }

  /** `_skippingSlot.set(s)`: the previous skipping slot goes to the ending collection. */
  function SetSkipping<E, V>(o: Out<E, V>, s: SlotId): Out<E, V> {
    var prev := o.sq.skipping;
    var o1 := Out(o.sq.(skipping := Some(s)), o.fx);
    if prev.Some? then AddEnding(o1, prev.value) else o1
  }

  /** `newPlaybackSlot(entry)`: a slot created while paused is suspended at once. */
  function NewSlot<E, V>(o: Out<E, V>, e: E): Out<E, V> {
    var n := |o.sq.entries|;
    var fx := o.fx + [Create(n, e)];
    Out(o.sq.(entries := o.sq.entries + [e]), if o.sq.state == Paused then fx + [Suspend(n)] else fx)
  }

  /** `preload(entry)`: setting the preloading reference starts loading the new slot. */
  function Preload<E, V>(o: Out<E, V>, entry: Option<E>): Result<Out<E, V>, Error> {
    if entry.None? then Failure(MissingEntry)
    else Success(SetPreloading(NewSlot(o, entry.value), Some(|o.sq.entries|)))
  }

  /**
   * `_playingSlot.set(s)`: the previous playing slot goes to the ending collection,
   * the new one is started, and the entry that follows it is preloaded when there is one.
   */
  function SetPlaying<E, V>(cfg: Config<E, V>, o: Out<E, V>, s: SlotId): Out<E, V>
    requires s < |o.sq.entries|
  {
    var prev := o.sq.playing;
    var o1 := Out(o.sq.(playing := Some(s)), o.fx);
    var o2 := if prev.Some? then AddEnding(o1, prev.value) else o1;
    var e := o.sq.entries[s];
    var o3 := Out(o2.sq, o2.fx + [Start(s), AskNext(e)]);
    var next := cfg.nextEntry(e);
    if next.Some? then Preload(o3, next).value else o3
  }

  // ---------------------------------------------------------------------------
  // Operations and completions

  function Play<E, V>(sq: Sequencer<E>): Out<E, V> {
    SetState(Out(sq, []), Playing)
  }

  function Pause<E, V>(sq: Sequencer<E>): Out<E, V> {
    SetState(Out(sq, []), Paused)
  }

  /** `skip(entry)`: the new slot becomes the skipping slot and starts loading. */
  function Skip<E, V>(sq: Sequencer<E>, entry: Option<E>): Result<Out<E, V>, Error> {
    if entry.None? then Failure(MissingEntry)
    else
      var n := |sq.entries|;
      var o := SetSkipping(NewSlot(Out(sq, []), entry.value), n);
      Success(Out(o.sq, o.fx + [Load(n)]))
  }

  /** `move()`, on a slot's ending cue: wait for the preloading slot's load, if there is one. */
  function Move<E, V>(sq: Sequencer<E>): Out<E, V> {
    if sq.preloading.None? then Out(sq, [])
    else
      var p := sq.preloading.value;
      Out(sq.(moveWaiting := sq.moveWaiting + {p}), [Load(p)])
  }

  /** `notifyComingNext()`, on a slot's endingSoon cue: skipping takes priority over preloading. */
  function NotifyComingNext<E, V>(cfg: Config<E, V>, sq: Sequencer<E>): Result<Out<E, V>, Error>
    requires Valid(sq)
  {
    if sq.playing.None? then Failure(NoPlayingSlot)
    else
      var next :=
        if sq.skipping.Some? then Some(cfg.video(sq.entries[sq.skipping.value]))
        else if sq.preloading.Some? then Some(cfg.video(sq.entries[sq.preloading.value]))
        else None;
      Success(Out(sq, [ComingNext(cfg.video(sq.entries[sq.playing.value]), next)]))
  }

  /**
   * The load of slot s resolved. The continuation `skip` attached promotes s when
   * it is still the skipping slot; the one `move` attached promotes s when it is
   * still the preloading slot. A stale resolution changes nothing.
   */
  function OnLoadDone<E, V>(cfg: Config<E, V>, sq: Sequencer<E>, s: SlotId): Out<E, V>
    requires Valid(sq)
  {
    var sq1 := sq.(moveWaiting := sq.moveWaiting - {s});
    if sq.skipping == Some(s) then
      // skipLoadFulfilled: skipping is cleared, preloading is set to null, s plays
      SetPlaying(cfg, SetPreloading(Out(sq1.(skipping := None), []), None), s)
    else if s in sq.moveWaiting && sq.preloading == Some(s) then
      SetPlaying(cfg, Out(sq1.(preloading := None), []), s)
    else Out(sq1, [])
  }

  /** `xs` without `s`. */
  function Remove(xs: seq<SlotId>, s: SlotId): (r: seq<SlotId>)
    ensures forall x :: x in r <==> x in xs && x != s
    ensures NoDup(xs) ==> NoDup(r)
  {
    if |xs| == 0 then []
    else if xs[0] == s then Remove(xs[1..], s)
    else
      var rest := Remove(xs[1..], s);
      assert NoDup(xs) ==> xs[0] !in xs[1..];
      [xs[0]] + rest
  }

  /** The end of slot s resolved: it leaves the ending collection. */
  function OnEndDone<E, V>(sq: Sequencer<E>, s: SlotId): Out<E, V> {
    Out(sq.(ending := Remove(sq.ending, s)), [])
  }

  /** One event; a thrown error leaves the state as it was. */
  function Step<E, V>(cfg: Config<E, V>, sq: Sequencer<E>, ev: Event<E>): (r: Result<Out<E, V>, Error>)
    requires Valid(sq)
  {
    match ev
    case CallPlay => Success(Play(sq))
    case CallPause => Success(Pause(sq))
    case CallSkip(entry) => Skip(sq, entry)
    case CueEndingSoon => NotifyComingNext(cfg, sq)
    case CueEnding => Success(Move(sq))
    case LoadDone(s) => Success(OnLoadDone(cfg, sq, s))
    case EndDone(s) => Success(OnEndDone(sq, s))
  }
}

=== FILE: sequencer_runs.dfy ===
/**
 * Arbitrary interleavings of calls, cues and async completions, and what holds
 * across all of them: every displaced slot is ended exactly once, the latest skip
 * wins, and the global state follows the last play / pause call.
 */
module SequencerRuns {
  import opened Wrappers
  import opened PlaybackSequencer
  import opened SequencerSteps

  /** One event; when it throws, the state stays and nothing is called. */
  function Apply<E, V>(cfg: Config<E, V>, sq: Sequencer<E>, ev: Event<E>): (r: Out<E, V>)
    requires Inv(sq)
    ensures Inv(r.sq)
    ensures sq.entries <= r.sq.entries
  {
    var s := Step(cfg, sq, ev);
    if s.Success? then
      StepAccounts(cfg, sq, ev);
      s.value
    else
      Out(sq, [])
  }

  /** Every slot an event displaces from its role is ended by it, and no other. */
  lemma ApplyAccounts<E, V>(cfg: Config<E, V>, sq: Sequencer<E>, ev: Event<E>)
    requires Inv(sq)
    ensures Accounts(sq, Apply(cfg, sq, ev))
  {
    if Step(cfg, sq, ev).Success? {
      StepAccounts(cfg, sq, ev);
    }
  }

  /**
   * Exactly two calls throw: `skip` without an entry, and a coming-next cue with
   * nothing playing. A call that throws changes nothing and calls nothing; any other
   * event has the effect its operation defines.
   */
  lemma ThrownCallChangesNothing<E, V>(cfg: Config<E, V>, sq: Sequencer<E>, ev: Event<E>)
    requires Inv(sq)
    ensures Step(cfg, sq, ev).Failure? <==> (ev.CallSkip? && ev.entry.None?) || (ev.CueEndingSoon? && sq.playing.None?)
    ensures Step(cfg, sq, ev).Failure? ==> Apply(cfg, sq, ev) == Out(sq, [])
    ensures Step(cfg, sq, ev).Success? ==> Apply(cfg, sq, ev) == Step(cfg, sq, ev).value
  {
  }

  /** The events in order, the effects of each appended to the trace. */
  function Run<E, V>(cfg: Config<E, V>, sq: Sequencer<E>, evs: seq<Event<E>>): (r: Out<E, V>)
    requires Inv(sq)
    ensures Inv(r.sq)
    ensures sq.entries <= r.sq.entries
    decreases |evs|
  {
    if |evs| == 0 then Out(sq, [])
    else
      var o := Apply(cfg, sq, evs[0]);
      var rest := Run(cfg, o.sq, evs[1..]);
      Out(rest.sq, o.fx + rest.fx)
  }

  lemma {:induction false} RunAppend<E, V>(cfg: Config<E, V>, sq: Sequencer<E>, a: seq<Event<E>>, b: seq<Event<E>>)
    requires Inv(sq)
    ensures var ra := Run(cfg, sq, a);
      var rb := Run(cfg, ra.sq, b);
      Run(cfg, sq, a + b) == Out(rb.sq, ra.fx + rb.fx)
    decreases |a|
  {
    if |a| == 0 {
      assert a + b == b;
    } else {
      var o := Apply(cfg, sq, a[0]);
      assert (a + b)[0] == a[0];
      assert (a + b)[1..] == a[1..] + b;
      RunAppend(cfg, o.sq, a[1..], b);
      var ra := Run(cfg, o.sq, a[1..]);
      var rb := Run(cfg, ra.sq, b);
      assert o.fx + (ra.fx + rb.fx) == (o.fx + ra.fx) + rb.fx;
    }
  }

  // ---------------------------------------------------------------------------
  // every displaced slot is ended exactly once

  /**
   * The trace `hist` has called `end()` exactly once on every created slot that holds
   * no role, and never on a slot that holds one.
   */
  ghost predicate EndsAccounted<E, V>(sq: Sequencer<E>, hist: seq<Effect<E, V>>) {
    forall m: SlotId :: multiset(hist)[End(m)] == if m < |sq.entries| && !InRole(sq, m) then 1 else 0
  }

  /**
   * One step of a run, named so that proofs about runs need not unfold `Run` or
   * `Apply` themselves: the first event's outcome accounts for its slots, and the
   * rest of the run continues from it.
   */
  lemma RunCons<E, V>(cfg: Config<E, V>, sq: Sequencer<E>, evs: seq<Event<E>>) returns (o: Out<E, V>, rest: Out<E, V>)
    requires Inv(sq) && |evs| > 0
    ensures Accounts(sq, o)
    ensures rest == Run(cfg, o.sq, evs[1..])
    ensures Run(cfg, sq, evs) == Out(rest.sq, o.fx + rest.fx)
  {
    o := Apply(cfg, sq, evs[0]);
    ApplyAccounts(cfg, sq, evs[0]);
    rest := Run(cfg, o.sq, evs[1..]);
  }

  /** What one `skip` call does to the roles, the entries and the `end()` calls. */
  ghost predicate SkipOutcome<E, V>(sq: Sequencer<E>, e: E, o: Out<E, V>) {
    && Inv(o.sq)
    && o.sq.entries == sq.entries + [e]
    && o.sq.skipping == Some(|sq.entries|)
    && o.sq.preloading == sq.preloading
    && o.sq.playing == sq.playing
    && o.sq.moveWaiting == sq.moveWaiting
    && (forall m: SlotId :: End(m) in o.fx <==> sq.skipping == Some(m))
  }

  /** `RunCons` for a run that starts with a `skip` call. */
  lemma RunConsSkip<E, V>(cfg: Config<E, V>, sq: Sequencer<E>, evs: seq<Event<E>>, e: E) returns (o: Out<E, V>, rest: Out<E, V>)
    requires Inv(sq) && |evs| > 0 && evs[0] == CallSkip(Some(e))
    ensures SkipOutcome(sq, e, o)
    ensures rest == Run(cfg, o.sq, evs[1..])
    ensures Run(cfg, sq, evs) == Out(rest.sq, o.fx + rest.fx)
  {
    SkipReplacesSkippingSlot<E, V>(sq, Some(e));
    o := Apply(cfg, sq, evs[0]);
    assert o == Skip<E, V>(sq, Some(e)).value;
    forall m: SlotId ensures End(m) in o.fx <==> sq.skipping == Some(m) {
      assert End(m) in o.fx <==> multiset(o.fx)[End(m)] > 0;
    }
    rest := Run(cfg, o.sq, evs[1..]);
  }

  /**
   * What the resolution of slot `s`'s load does when `s` is not waiting to be moved
   * in: the skipping slot is promoted to playing, any other slot is ignored.
   */
  ghost predicate LoadOutcome<E, V>(sq: Sequencer<E>, s: SlotId, o: Out<E, V>) {
    && Inv(o.sq)
    && sq.entries <= o.sq.entries
    && End(s) !in o.fx
    && (if sq.skipping == Some(s) then
          && o.sq.playing == Some(s)
          && o.sq.skipping.None?
          && (o.sq.preloading.Some? ==> o.sq.preloading.value >= |sq.entries|)
          && o.sq.moveWaiting == sq.moveWaiting
        else
          o == Out(sq, []))
  }

  /** `RunCons` for a run that starts with the resolution of a slot's load. */
  lemma RunConsLoad<E, V>(cfg: Config<E, V>, sq: Sequencer<E>, evs: seq<Event<E>>, s: SlotId) returns (o: Out<E, V>, rest: Out<E, V>)
    requires Inv(sq) && |evs| > 0 && evs[0] == LoadDone(s) && s !in sq.moveWaiting
    ensures LoadOutcome(sq, s, o)
    ensures rest == Run(cfg, o.sq, evs[1..])
    ensures Run(cfg, sq, evs) == Out(rest.sq, o.fx + rest.fx)
  {
    o := Apply(cfg, sq, evs[0]);
    assert o == OnLoadDone(cfg, sq, s);
    assert sq.moveWaiting - {s} == sq.moveWaiting;
    if sq.skipping == Some(s) {
      SkipLoadPromotes(cfg, sq, s);
      assert multiset(o.fx)[End(s)] == 0;
    } else {
      StaleLoadIgnored(cfg, sq, s);
    }
    rest := Run(cfg, o.sq, evs[1..]);
  }

  lemma EndsAccountedStep<E, V>(sq: Sequencer<E>, o: Out<E, V>, hist: seq<Effect<E, V>>)
    requires Inv(sq) && Accounts(sq, o) && EndsAccounted(sq, hist)
    ensures EndsAccounted(o.sq, hist + o.fx)
  {
    forall m: SlotId
      ensures multiset(hist + o.fx)[End(m)] == if m < |o.sq.entries| && !InRole(o.sq, m) then 1 else 0
    {
      assert multiset(hist + o.fx)[End(m)] == multiset(hist)[End(m)] + multiset(o.fx)[End(m)];
      if m >= |sq.entries| {
        assert !InRole(sq, m);
      }
    }
  }

  lemma {:induction false} RunKeepsEndsAccounted<E, V>(
    cfg: Config<E, V>, sq: Sequencer<E>, evs: seq<Event<E>>, hist: seq<Effect<E, V>>)
    requires Inv(sq) && EndsAccounted(sq, hist)
    ensures var r := Run(cfg, sq, evs); EndsAccounted(r.sq, hist + r.fx)
    decreases |evs|
  {
    if |evs| == 0 {
      assert hist + [] == hist;
    } else {
      var o, rest := RunCons(cfg, sq, evs);
      EndsAccountedStep(sq, o, hist);
      RunKeepsEndsAccounted(cfg, o.sq, evs[1..], hist + o.fx);
      assert hist + o.fx + rest.fx == hist + (o.fx + rest.fx);
    }
  }

  /**
   * From a fresh sequencer, after any interleaving of calls, cues and completions,
   * every slot that was displaced from its role has had `end()` called exactly once,
   * and no slot that still holds a role has ever had it called.
   */
  lemma EveryDisplacedSlotEndedOnce<E, V>(cfg: Config<E, V>, evs: seq<Event<E>>)
    ensures var r := Run(cfg, Init<E>(), evs);
      forall m: SlotId :: m < |r.sq.entries| ==> multiset(r.fx)[End(m)] == if InRole(r.sq, m) then 0 else 1
  {
    var r := Run(cfg, Init<E>(), evs);
    RunKeepsEndsAccounted(cfg, Init<E>(), evs, []);
    assert [] + r.fx == r.fx;
  }

  // ---------------------------------------------------------------------------
  // latest skip wins

  /** A `skip` call for each of `es`, in order. */
  function SkipEvents<E>(es: seq<E>): (evs: seq<Event<E>>)
    ensures |evs| == |es|
    ensures forall i :: 0 <= i < |es| ==> evs[i] == CallSkip(Some(es[i]))
  {
    if |es| == 0 then [] else [CallSkip(Some(es[0]))] + SkipEvents(es[1..])
  }

  /** The resolution of the load of each of `rs`, in order. */
  function LoadEvents<E>(rs: seq<SlotId>): (evs: seq<Event<E>>)
    ensures |evs| == |rs|
    ensures forall i :: 0 <= i < |rs| ==> evs[i] == LoadDone(rs[i])
  {
    if |rs| == 0 then [] else [LoadDone(rs[0])] + LoadEvents(rs[1..])
  }

  /**
   * Back-to-back skips of `es` from `sq`: the last new slot is the skipping slot, and
   * every earlier one (and the skipping slot there was before) has been ended; nothing
   * else is, and no other role changes.
   */
  ghost predicate SkipsOutcome<E, V>(sq: Sequencer<E>, es: seq<E>, r: Out<E, V>) {
    var k := |sq.entries|;
    && |es| > 0
    && r.sq.entries == sq.entries + es
    && r.sq.skipping == Some(k + |es| - 1)
    && r.sq.preloading == sq.preloading
    && r.sq.playing == sq.playing
    && r.sq.moveWaiting == sq.moveWaiting
    && (sq.skipping.Some? ==> End(sq.skipping.value) in r.fx)
    && (forall m: SlotId :: k <= m < k + |es| - 1 ==> End(m) in r.fx)
    && (forall m: SlotId :: End(m) in r.fx ==> sq.skipping == Some(m) || k <= m < k + |es| - 1)
  }

  lemma SkipsCompose<E, V>(sq: Sequencer<E>, es: seq<E>, o: Out<E, V>, rest: Out<E, V>)
    requires |es| > 1 && SkipOutcome(sq, es[0], o) && SkipsOutcome(o.sq, es[1..], rest)
    ensures SkipsOutcome(sq, es, Out(rest.sq, o.fx + rest.fx))
  {
    var k := |sq.entries|;
    assert sq.entries + [es[0]] + es[1..] == sq.entries + es;
    assert End(k) in rest.fx;
  }

  lemma {:induction false} RunSkips<E, V>(cfg: Config<E, V>, sq: Sequencer<E>, es: seq<E>)
    requires Inv(sq) && |es| > 0
    ensures SkipsOutcome(sq, es, Run(cfg, sq, SkipEvents(es)))
    decreases |es|
  {
    var evs := SkipEvents(es);
    assert evs[0] == CallSkip(Some(es[0]));
    assert evs[1..] == SkipEvents(es[1..]);
    var o, rest := RunConsSkip(cfg, sq, evs, es[0]);
    if |es| == 1 {
      assert rest == Out(o.sq, []);
      assert o.fx + [] == o.fx;
      assert es == [es[0]];
    } else {
      RunSkips(cfg, o.sq, es[1..]);
      SkipsCompose(sq, es, o, rest);
    }
  }

  ghost predicate LoadsOutcome<E, V>(sq: Sequencer<E>, rs: seq<SlotId>, lo: nat, last: SlotId, r: Out<E, V>) {
    && (sq.skipping == Some(last) && last !in rs ==> r.sq == sq && r.fx == [])
    && (sq.playing == Some(last) || last in rs ==> r.sq.playing == Some(last) && r.sq.skipping.None?)
    && End(last) !in r.fx
    && (forall m: SlotId :: lo <= m < last ==> !InRole(r.sq, m))
  }

  /**
   * Load resolutions for slots created by back-to-back skips, in any order and with
   * repeats: they promote the latest one (once its own load resolves) and change no
   * role for any other.
   */
  lemma {:induction false} RunLoads<E, V>(cfg: Config<E, V>, sq: Sequencer<E>, rs: seq<SlotId>, lo: nat, last: SlotId)
    requires Inv(sq) && lo <= last < |sq.entries|
    requires forall m :: m in sq.moveWaiting ==> m < lo
    requires forall i :: 0 <= i < |rs| ==> lo <= rs[i] <= last
    requires sq.skipping == Some(last) || (sq.playing == Some(last) && sq.skipping.None?)
    requires forall m: SlotId :: lo <= m < last ==> !InRole(sq, m)
    ensures LoadsOutcome(sq, rs, lo, last, Run(cfg, sq, LoadEvents(rs)))
    decreases |rs|
  {
    if |rs| > 0 {
      var x := rs[0];
      var evs := LoadEvents<E>(rs);
      assert evs[0] == LoadDone(x);
      assert evs[1..] == LoadEvents(rs[1..]);
      assert x !in sq.moveWaiting;
      var o, rest := RunConsLoad(cfg, sq, evs, x);
      RunLoads(cfg, o.sq, rs[1..], lo, last);
      assert last in rs <==> x == last || last in rs[1..];
    }
  }

  /**
   * The outcome `r` of back-to-back skips of `es` from `sq` followed by load
   * resolutions `rs`: only the entry of the last call is promoted to playing, and only
   * once its own load resolves; every earlier new slot has been ended and holds no
   * role, the skipping slot there was before has been ended, and the last new slot
   * never has.
   */
  ghost predicate LatestOutcome<E, V>(sq: Sequencer<E>, es: seq<E>, rs: seq<SlotId>, r: Out<E, V>)
    requires |es| > 0
  {
    var last := |sq.entries| + |es| - 1;
    && last < |r.sq.entries| && r.sq.entries[last] == es[|es| - 1]
    && (last in rs ==> r.sq.playing == Some(last) && r.sq.skipping.None?)
    && (last !in rs ==> r.sq.playing == sq.playing && r.sq.skipping == Some(last))
    && (forall m: SlotId :: |sq.entries| <= m < last ==> End(m) in r.fx && !InRole(r.sq, m))
    && (sq.skipping.Some? ==> End(sq.skipping.value) in r.fx)
    && End(last) !in r.fx
  }

  lemma LatestCompose<E, V>(sq: Sequencer<E>, es: seq<E>, rs: seq<SlotId>, k: nat, last: SlotId, r1: Out<E, V>, r2: Out<E, V>)
    requires k == |sq.entries| && last == k + |es| - 1
    requires Inv(sq) && SkipsOutcome(sq, es, r1)
    requires LoadsOutcome(r1.sq, rs, k, last, r2)
    requires r1.sq.entries <= r2.sq.entries
    ensures LatestOutcome(sq, es, rs, Out(r2.sq, r1.fx + r2.fx))
  {
    assert r1.sq.entries[last] == es[|es| - 1];
    assert forall m: SlotId :: End(m) in r1.fx ==> End(m) in r1.fx + r2.fx;
  }

  /**
   * What the skips phase leaves for the loads phase: the slots from k on were created
   * by the skips, the last of them is skipping, the earlier ones hold no role, and no
   * `move` waits on any of them.
   */
  ghost predicate ReadyForLoads<E>(sq1: Sequencer<E>, k: nat, last: SlotId) {
    && Inv(sq1) && k <= last < |sq1.entries|
    && (forall m :: m in sq1.moveWaiting ==> m < k)
    && sq1.skipping == Some(last)
    && (forall m: SlotId :: k <= m < last ==> !InRole(sq1, m))
  }

  /** The skips phase of `LatestSkipWins`, and what it leaves for the loads phase. */
  lemma SkipsPhase<E, V>(cfg: Config<E, V>, sq: Sequencer<E>, es: seq<E>) returns (r1: Out<E, V>)
    requires Inv(sq) && |es| > 0
    ensures r1 == Run(cfg, sq, SkipEvents(es))
    ensures Inv(r1.sq) && SkipsOutcome(sq, es, r1)
    ensures ReadyForLoads(r1.sq, |sq.entries|, |sq.entries| + |es| - 1)
  {
    RunSkips(cfg, sq, es);
    r1 := Run(cfg, sq, SkipEvents(es));
  }

  /** The loads phase of `LatestSkipWins`. */
  lemma LoadsPhase<E, V>(cfg: Config<E, V>, sq1: Sequencer<E>, rs: seq<SlotId>, k: nat, last: SlotId) returns (r2: Out<E, V>)
    requires ReadyForLoads(sq1, k, last)
    requires forall i :: 0 <= i < |rs| ==> k <= rs[i] <= last
    ensures r2 == Run(cfg, sq1, LoadEvents(rs))
    ensures sq1.entries <= r2.sq.entries && LoadsOutcome(sq1, rs, k, last, r2)
  {
    RunLoads(cfg, sq1, rs, k, last);
    r2 := Run(cfg, sq1, LoadEvents(rs));
  }

  lemma BothPhases<E, V>(cfg: Config<E, V>, sq: Sequencer<E>, es: seq<E>, rs: seq<SlotId>) returns (r1: Out<E, V>, r2: Out<E, V>)
    requires Inv(sq) && |es| > 0
    requires forall i :: 0 <= i < |rs| ==> |sq.entries| <= rs[i] < |sq.entries| + |es|
    ensures r1 == Run(cfg, sq, SkipEvents(es)) && Inv(r1.sq)
    ensures r2 == Run(cfg, r1.sq, LoadEvents(rs))
    ensures LatestOutcome(sq, es, rs, Out(r2.sq, r1.fx + r2.fx))
  {
    var k := |sq.entries|;
    var last := k + |es| - 1;
    assert forall i :: 0 <= i < |rs| ==> k <= rs[i] <= last;
    r1 := SkipsPhase(cfg, sq, es);
    r2 := LoadsPhase(cfg, r1.sq, rs, k, last);
    LatestCompose(sq, es, rs, k, last, r1, r2);
  }

  /**
   * After back-to-back `skip` calls and the resolution of their loads in any order,
   * only the entry of the last call is promoted to playing, every earlier slot has
   * been ended and holds no role, and the promoted slot has never been ended. Until
   * the last slot's own load resolves, nothing changes what plays.
   */
  lemma LatestSkipWins<E, V>(cfg: Config<E, V>, sq: Sequencer<E>, es: seq<E>, rs: seq<SlotId>)
    requires Inv(sq) && |es| > 0
    requires forall i :: 0 <= i < |rs| ==> |sq.entries| <= rs[i] < |sq.entries| + |es|
    ensures LatestOutcome(sq, es, rs, Run(cfg, sq, SkipEvents(es) + LoadEvents(rs)))
  {
    var r1, r2 := BothPhases(cfg, sq, es, rs);
    RunAppend(cfg, sq, SkipEvents(es), LoadEvents(rs));
  }

  // ---------------------------------------------------------------------------
  // the global state

  /** The reference definition: the state the last play / pause call asked for. */
  function LastRequested<E>(evs: seq<Event<E>>, initial: GlobalState): GlobalState
    decreases |evs|
  {
    if |evs| == 0 then initial
    else
      var s := match evs[0]
        case CallPlay => Playing
        case CallPause => Paused
        case _ => initial;
      LastRequested(evs[1..], s)
  }

  /** Only `play` and `pause` change the global state, each to its own value. */
  lemma StepState<E, V>(cfg: Config<E, V>, sq: Sequencer<E>, ev: Event<E>)
    requires Inv(sq)
    ensures Apply(cfg, sq, ev).sq.state ==
      match ev
      case CallPlay => Playing
      case CallPause => Paused
      case _ => sq.state
  {
    match ev
    case CallPlay => PlayProceedsEveryTrackedSlot<E, V>(sq);
    case CallPause => PauseSuspendsEveryTrackedSlot<E, V>(sq);
    case CallSkip(entry) => SkipReplacesSkippingSlot<E, V>(sq, entry);
    case CueEndingSoon => ComingNextReportsUpcoming(cfg, sq);
    case CueEnding => MoveWaitsForPreloading<E, V>(sq);
    case LoadDone(s) =>
      if sq.skipping == Some(s) {
        SkipLoadPromotes(cfg, sq, s);
      } else if s in sq.moveWaiting && sq.preloading == Some(s) {
        MoveLoadPromotes(cfg, sq, s);
      } else {
        StaleLoadIgnored(cfg, sq, s);
      }
    case EndDone(s) => EndDoneRemovesSlot<E, V>(sq, s);
  }

  /**
   * The global state after any run is the one the last `play` / `pause` call asked
   * for, or the state the run started in when there was none; so a fresh sequencer
   * stays `pristine` until the first of them, and never becomes `stopped`.
   */
  lemma {:induction false} StateFollowsPlayPause<E, V>(cfg: Config<E, V>, sq: Sequencer<E>, evs: seq<Event<E>>)
    requires Inv(sq)
    ensures Run(cfg, sq, evs).sq.state == LastRequested(evs, sq.state)
    ensures sq.state != Stopped ==> Run(cfg, sq, evs).sq.state != Stopped
    decreases |evs|
  {
    if |evs| > 0 {
      StepState(cfg, sq, evs[0]);
      var o := Apply(cfg, sq, evs[0]);
      StateFollowsPlayPause(cfg, o.sq, evs[1..]);
    }
  }
}

=== FILE: sequencer_steps.dfy ===
/**
 * What each sequencer operation and each async completion does, one call at a time:
 * which roles change, which slot methods get called, and that the invariant holds.
 */
module SequencerSteps {
  import opened Wrappers
  import opened PlaybackSequencer

  // ---------------------------------------------------------------------------
  // Sequences without duplicates

  lemma NoDupAppend<T>(a: seq<T>, b: seq<T>)
    requires NoDup(a) && NoDup(b)
    requires forall x :: x in a ==> x !in b
    ensures NoDup(a + b)
  {
    forall i, j | 0 <= i < j < |a + b|
      ensures (a + b)[i] != (a + b)[j]
    {
      if j < |a| {
      } else if i >= |a| {
        assert (a + b)[i] == b[i - |a|] && (a + b)[j] == b[j - |a|];
      } else {
        assert (a + b)[i] in a && (a + b)[j] in b;
      }
    }
  }

  // ---------------------------------------------------------------------------
  // Counting calls

  lemma CountJoin3<T>(a: seq<T>, b: seq<T>, c: seq<T>, x: T)
    ensures multiset(a + b + c)[x] == multiset(a)[x] + multiset(b)[x] + multiset(c)[x]
  {
    assert multiset(a + b + c) == multiset(a) + multiset(b) + multiset(c);
  }

  lemma CountJoin4<T>(a: seq<T>, b: seq<T>, c: seq<T>, d: seq<T>, x: T)
    ensures multiset(a + b + c + d)[x] == multiset(a)[x] + multiset(b)[x] + multiset(c)[x] + multiset(d)[x]
  {
    assert multiset(a + b + c + d) == multiset(a) + multiset(b) + multiset(c) + multiset(d);
  }

  lemma CountOne<T>(y: T, x: T)
    ensures multiset([y])[x] == if x == y then 1 else 0
  {
  }

  lemma CountPair<T>(y: T, z: T, x: T)
    requires y != z
    ensures multiset([y, z])[x] == if x == y || x == z then 1 else 0
  {
    assert [y, z] == [y] + [z];
  }

  /** `forEachSlot` visits each tracked slot, and nothing else, exactly once. */
  lemma TrackedExactly<E>(sq: Sequencer<E>)
    requires Inv(sq)
    ensures NoDup(Tracked(sq))
    ensures forall n: SlotId :: n in Tracked(sq) <==> IsTracked(sq, n)
  {
    var a, b, c := OptionToSeq(sq.preloading), OptionToSeq(sq.skipping), OptionToSeq(sq.playing);
    NoDupAppend(a, b);
    NoDupAppend(a + b, c);
    NoDupAppend(a + b + c, sq.ending);
  }

  /** Notifying a duplicate-free list reaches each listed slot exactly once. */
  lemma {:induction false} NotifyCount<E, V>(ids: seq<SlotId>, proceed: bool, n: SlotId)
    requires NoDup(ids)
    ensures multiset(Notify<E, V>(ids, proceed))[if proceed then Proceed(n) else Suspend(n)]
            == if n in ids then 1 else 0
  {
    if |ids| > 0 {
      var mk: Effect<E, V> := if proceed then Proceed(n) else Suspend(n);
      var hd: Effect<E, V> := if proceed then Proceed(ids[0]) else Suspend(ids[0]);
      var rest := Notify<E, V>(ids[1..], proceed);
      assert NoDup(ids[1..]);
      NotifyCount<E, V>(ids[1..], proceed, n);
      assert Notify<E, V>(ids, proceed) == [hd] + rest;
      assert multiset([hd] + rest)[mk] == multiset([hd])[mk] + multiset(rest)[mk];
      assert multiset([hd])[mk] == if ids[0] == n then 1 else 0;
      assert n in ids <==> n == ids[0] || n in ids[1..];
      assert ids[0] !in ids[1..];
    }
  }

  // ---------------------------------------------------------------------------
  // the listeners

  /**
   * `_state.set(s)`: the state becomes s and no slot or role changes; entering
   * `playing` calls `proceed()`, and entering `paused` calls `suspend()`, once on every
   * tracked slot and on nothing else, and any other state calls nothing.
   */
  lemma SetStateNotifiesTracked<E, V>(o: Out<E, V>, s: GlobalState)
    requires Inv(o.sq)
    ensures var r := SetState(o, s);
      var d := r.fx[|o.fx|..];
      && |o.fx| <= |r.fx| && r.fx[..|o.fx|] == o.fx
      && r.sq == o.sq.(state := s)
      && (s == Playing ==> forall i :: 0 <= i < |d| ==> d[i].Proceed?)
      && (s == Playing ==> forall n: SlotId :: multiset(d)[Proceed(n)] == if IsTracked(o.sq, n) then 1 else 0)
      && (s == Paused ==> forall i :: 0 <= i < |d| ==> d[i].Suspend?)
      && (s == Paused ==> forall n: SlotId :: multiset(d)[Suspend(n)] == if IsTracked(o.sq, n) then 1 else 0)
      && (s != Playing && s != Paused ==> d == [])
  {
    TrackedExactly(o.sq);
    var r := SetState(o, s);
    if s == Playing || s == Paused {
      var proceed := s == Playing;
      var fx := Notify<E, V>(Tracked(o.sq), proceed);
      assert r.fx == o.fx + fx;
      assert r.fx[|o.fx|..] == fx;
      forall n: SlotId
        ensures multiset(fx)[if proceed then Proceed(n) else Suspend(n)] == if IsTracked(o.sq, n) then 1 else 0
      {
        NotifyCount<E, V>(Tracked(o.sq), proceed, n);
      }
    }
  }

  /**
   * `_endingSlots.add(s)` for a slot that has just lost its role: s joins the ending
   * collection, the added listener calls `end()` on it once and nothing else, and the
   * invariant is kept.
   */
  lemma AddEndingEndsSlot<E, V>(o: Out<E, V>, s: SlotId)
    requires Inv(o.sq) && s < |o.sq.entries| && !IsTracked(o.sq, s)
    ensures var r := AddEnding(o, s);
      && Inv(r.sq)
      && (forall m: SlotId :: m in r.sq.ending <==> m in o.sq.ending || m == s)
      && r.sq == o.sq.(ending := r.sq.ending)
      && r.fx == o.fx + [End(s)]
  {
    var sq' := AddEnding(o, s).sq;
    NoDupAppend(o.sq.ending, [s]);
    forall i | 0 <= i < |sq'.ending| ensures sq'.ending[i] < |sq'.entries| {
      if i < |o.sq.ending| { assert sq'.ending[i] == o.sq.ending[i]; }
    }
  }

  /**
   * `_preloadingSlot.set(x)`: x becomes the preloading slot; the previous one, if any,
   * is ended (first), x, if any, is loaded, and nothing else is called.
   */
  lemma SetPreloadingEndsAndLoads<E, V>(o: Out<E, V>, x: Option<SlotId>)
    ensures var r := SetPreloading(o, x);
      var d := r.fx[|o.fx|..];
      && |o.fx| <= |r.fx| && r.fx[..|o.fx|] == o.fx
      && r.sq == o.sq.(preloading := x)
      && (forall y :: multiset(d)[y] == if EndOf(o.sq.preloading, y) || (x.Some? && y == Load(x.value)) then 1 else 0)
      && (o.sq.preloading.Some? && x.Some? ==> d == [End(o.sq.preloading.value), Load(x.value)])
  {
    var a: seq<Effect<E, V>> := if o.sq.preloading.Some? then [End(o.sq.preloading.value)] else [];
    var b: seq<Effect<E, V>> := if x.Some? then [Load(x.value)] else [];
    var r := SetPreloading(o, x);
    assert r.fx == o.fx + (a + b);
    assert r.fx[|o.fx|..] == a + b;
    forall y ensures multiset(a + b)[y] == if EndOf(o.sq.preloading, y) || (x.Some? && y == Load(x.value)) then 1 else 0 {
      assert multiset(a + b)[y] == multiset(a)[y] + multiset(b)[y];
    }
  }

  /**
   * `_skippingSlot.set(s)`: s becomes the skipping slot; the previous one, if any,
   * moves to the ending collection and is ended, and nothing else is called.
   */
  lemma SetSkippingRetiresPrevious<E, V>(o: Out<E, V>, s: SlotId)
    ensures var r := SetSkipping(o, s);
      var d := r.fx[|o.fx|..];
      && |o.fx| <= |r.fx| && r.fx[..|o.fx|] == o.fx
      && r.sq == o.sq.(skipping := Some(s), ending := o.sq.ending + OptionToSeq(o.sq.skipping))
      && (forall y :: multiset(d)[y] == if EndOf(o.sq.skipping, y) then 1 else 0)
  {
    var r := SetSkipping(o, s);
    if o.sq.skipping.Some? {
      assert r.fx[|o.fx|..] == [End(o.sq.skipping.value)];
    } else {
      assert r.fx[|o.fx|..] == [];
    }
  }

  /**
   * `newPlaybackSlot(e)`: a new slot, holding no role yet, is created for e and is
   * suspended straight away exactly when the sequencer is paused; nothing else is
   * called and nothing else changes.
   */
  lemma NewSlotSuspendsWhenPaused<E, V>(o: Out<E, V>, e: E)
    requires Inv(o.sq)
    ensures var r := NewSlot(o, e);
      var n := |o.sq.entries|;
      var d := r.fx[|o.fx|..];
      && |o.fx| < |r.fx| && r.fx[..|o.fx|] == o.fx
      && r.sq == o.sq.(entries := o.sq.entries + [e])
      && r.sq.entries[n] == e && !IsTracked(r.sq, n)
      && d[0] == Create(n, e)
      && (forall y :: multiset(d)[y] == if y == Create(n, e) || (o.sq.state == Paused && y == Suspend(n)) then 1 else 0)
  {
    var n := |o.sq.entries|;
    var r := NewSlot(o, e);
    var a: seq<Effect<E, V>> := [Create(n, e)];
    var b: seq<Effect<E, V>> := if o.sq.state == Paused then [Suspend(n)] else [];
    assert r.fx == o.fx + (a + b);
    assert r.fx[|o.fx|..] == a + b;
    forall y ensures multiset(a + b)[y] == if y == Create(n, e) || (o.sq.state == Paused && y == Suspend(n)) then 1 else 0 {
      assert multiset(a + b)[y] == multiset(a)[y] + multiset(b)[y];
    }
    assert n !in o.sq.ending;
  }

  // ---------------------------------------------------------------------------
  // play / pause

  lemma InvIgnoresState<E>(sq: Sequencer<E>, s: GlobalState)
    requires Inv(sq)
    ensures Inv(sq.(state := s))
  {
    var sq' := sq.(state := s);
    assert forall n: SlotId :: InRole(sq', n) == InRole(sq, n);
  }

  /** Entering `playing` calls `proceed()` once on every tracked slot and on nothing else. */
  lemma PlayProceedsEveryTrackedSlot<E, V>(sq: Sequencer<E>)
    requires Inv(sq)
    ensures var r := Play<E, V>(sq);
      && r.sq == sq.(state := Playing)
      && Inv(r.sq)
      && (forall i :: 0 <= i < |r.fx| ==> r.fx[i].Proceed?)
      && (forall n: SlotId :: multiset(r.fx)[Proceed(n)] == if IsTracked(sq, n) then 1 else 0)
  {
    TrackedExactly(sq);
    InvIgnoresState(sq, Playing);
    var fx := Notify<E, V>(Tracked(sq), true);
    assert Play<E, V>(sq) == Out(sq.(state := Playing), [] + fx);
    assert [] + fx == fx;
    forall n: SlotId ensures multiset(fx)[Proceed(n)] == if IsTracked(sq, n) then 1 else 0 {
      NotifyCount<E, V>(Tracked(sq), true, n);
    }
  }

  /** Entering `paused` calls `suspend()` once on every tracked slot and on nothing else. */
  lemma PauseSuspendsEveryTrackedSlot<E, V>(sq: Sequencer<E>)
    requires Inv(sq)
    ensures var r := Pause<E, V>(sq);
      && r.sq == sq.(state := Paused)
      && Inv(r.sq)
      && (forall i :: 0 <= i < |r.fx| ==> r.fx[i].Suspend?)
      && (forall n: SlotId :: multiset(r.fx)[Suspend(n)] == if IsTracked(sq, n) then 1 else 0)
  {
    TrackedExactly(sq);
    InvIgnoresState(sq, Paused);
    var fx := Notify<E, V>(Tracked(sq), false);
    assert Pause<E, V>(sq) == Out(sq.(state := Paused), [] + fx);
    assert [] + fx == fx;
    forall n: SlotId ensures multiset(fx)[Suspend(n)] == if IsTracked(sq, n) then 1 else 0 {
      NotifyCount<E, V>(Tracked(sq), false, n);
    }
  }

  // ---------------------------------------------------------------------------
  // skip and preload

  /** A call made while creating slot n for entry e and loading it: suspended too when paused. */
  ghost predicate NewSlotCall<E, V>(state: GlobalState, n: SlotId, e: E, x: Effect<E, V>) {
    x == Create(n, e) || (state == Paused && x == Suspend(n)) || x == Load(n)
  }

  /** The `end()` of the slot a role held before, when it held one. */
  ghost predicate EndOf<E, V>(prev: Option<SlotId>, x: Effect<E, V>) {
    prev.Some? && x == End(prev.value)
  }

  /**
   * Proof helper, not a second model: slot n is created for e (and suspended when
   * paused), `prev` is ended, and n is loaded, in the order the operations make the calls.
   */
  function SlotEffects<E, V>(state: GlobalState, n: SlotId, e: E, prev: Option<SlotId>): seq<Effect<E, V>> {
    [Create(n, e)]
    + (if state == Paused then [Suspend(n)] else [])
    + (if prev.Some? then [End(prev.value)] else [])
    + [Load(n)]
  }

  /** Each of those calls is made exactly once, and no other call is made. */
  lemma SlotEffectsExact<E, V>(state: GlobalState, n: SlotId, e: E, prev: Option<SlotId>)
    ensures forall x: Effect<E, V> ::
              multiset(SlotEffects<E, V>(state, n, e, prev))[x] == if NewSlotCall(state, n, e, x) || EndOf(prev, x) then 1 else 0
  {
    forall x: Effect<E, V>
      ensures multiset(SlotEffects<E, V>(state, n, e, prev))[x] == if NewSlotCall(state, n, e, x) || EndOf(prev, x) then 1 else 0
    {
      SlotCallCount(state, n, e, prev, x);
    }
  }

  /** The count of one call among a new slot's calls. */
  lemma SlotCallCount<E, V>(state: GlobalState, n: SlotId, e: E, prev: Option<SlotId>, x: Effect<E, V>)
    ensures multiset(SlotEffects<E, V>(state, n, e, prev))[x] == if NewSlotCall(state, n, e, x) || EndOf(prev, x) then 1 else 0
  {
    var a: seq<Effect<E, V>> := [Create(n, e)];
    var b: seq<Effect<E, V>> := if state == Paused then [Suspend(n)] else [];
    var c: seq<Effect<E, V>> := if prev.Some? then [End(prev.value)] else [];
    var l: seq<Effect<E, V>> := [Load(n)];
    assert SlotEffects<E, V>(state, n, e, prev) == a + b + c + l;
    CountJoin4(a, b, c, l, x);
    CountOne<Effect<E, V>>(Create(n, e), x);
    CountOne<Effect<E, V>>(Load(n), x);
    if state == Paused {
      CountOne<Effect<E, V>>(Suspend(n), x);
    }
    if prev.Some? {
      CountOne<Effect<E, V>>(End(prev.value), x);
    }
    SlotCallParts(state, n, e, prev, x);
  }

  /** The calls of a new slot are pairwise different. */
  lemma SlotCallParts<E, V>(state: GlobalState, n: SlotId, e: E, prev: Option<SlotId>, x: Effect<E, V>)
    ensures (if NewSlotCall(state, n, e, x) || EndOf(prev, x) then 1 else 0)
         == (if x == Create(n, e) then 1 else 0)
          + (if state == Paused && x == Suspend(n) then 1 else 0)
          + (if EndOf(prev, x) then 1 else 0)
          + (if x == Load(n) then 1 else 0)
  {
  }

  /**
   * The shape of a new slot's calls: creation comes first and the load last, the slot
   * is suspended exactly when paused, and only `prev` is ended, once.
   */
  lemma SlotEffectsShape<E, V>(state: GlobalState, n: SlotId, e: E, prev: Option<SlotId>)
    ensures var d := SlotEffects<E, V>(state, n, e, prev);
      && d[0] == Create(n, e)
      && d[|d| - 1] == Load(n)
      && (Suspend(n) in d <==> state == Paused)
      && (forall m: SlotId :: multiset(d)[End(m)] == if prev == Some(m) then 1 else 0)
  {
    var d := SlotEffects<E, V>(state, n, e, prev);
    SlotCallCount<E, V>(state, n, e, prev, Suspend(n));
    forall m: SlotId ensures multiset(d)[End(m)] == if prev == Some(m) then 1 else 0 {
      SlotCallCount<E, V>(state, n, e, prev, End(m));
    }
  }

  /** Proof helper: the effects `skip(entry)` produces. */
  function SkipEffects<E, V>(sq: Sequencer<E>, e: E): seq<Effect<E, V>> {
    SlotEffects(sq.state, |sq.entries|, e, sq.skipping)
  }

  lemma SkipUnfold<E, V>(sq: Sequencer<E>, e: E)
    ensures Skip<E, V>(sq, Some(e)) == Success(Out(
      sq.(entries := sq.entries + [e], skipping := Some(|sq.entries|), ending := sq.ending + OptionToSeq(sq.skipping)),
      SkipEffects(sq, e)))
  {
    var n := |sq.entries|;
    var o1 := NewSlot<E, V>(Out(sq, []), e);
    var c: seq<Effect<E, V>> := [Create(n, e)] + (if sq.state == Paused then [Suspend(n)] else []);
    assert o1.fx == c;
    var o2 := SetSkipping(o1, n);
    assert o2.fx == c + (if sq.skipping.Some? then [End(sq.skipping.value)] else []);
    assert sq.ending + OptionToSeq(sq.skipping) == if sq.skipping.Some? then sq.ending + [sq.skipping.value] else sq.ending;
    assert o2.sq == sq.(entries := sq.entries + [e], skipping := Some(n), ending := sq.ending + OptionToSeq(sq.skipping));
  }

  lemma SkipKeepsInv<E>(sq: Sequencer<E>, e: E)
    requires Inv(sq)
    ensures Inv(sq.(entries := sq.entries + [e], skipping := Some(|sq.entries|), ending := sq.ending + OptionToSeq(sq.skipping)))
  {
    var n := |sq.entries|;
    var sq' := sq.(entries := sq.entries + [e], skipping := Some(n), ending := sq.ending + OptionToSeq(sq.skipping));
    forall i | 0 <= i < |sq'.ending| ensures sq'.ending[i] < |sq'.entries| {
      if i < |sq.ending| { assert sq'.ending[i] == sq.ending[i]; }
    }
    assert Valid(sq');
    NoDupAppend(sq.ending, OptionToSeq(sq.skipping));
    forall m: SlotId | m in sq'.ending ensures !InRole(sq', m) {
      if m in sq.ending { assert !InRole(sq, m); }
    }
  }

  /**
   * `skip(entry)`: an absent entry throws before any slot exists; otherwise the new
   * slot (suspended at creation when paused) becomes the skipping slot and is loaded,
   * and the previous skipping slot is ended and moves to the ending collection.
   */
  lemma SkipReplacesSkippingSlot<E, V>(sq: Sequencer<E>, entry: Option<E>)
    requires Inv(sq)
    ensures Skip<E, V>(sq, entry).Failure? <==> entry.None?
    ensures entry.None? ==> Skip<E, V>(sq, entry).error == MissingEntry
    ensures entry.Some? ==>
      var r := Skip<E, V>(sq, entry).value;
      var n := |sq.entries|;
      && Inv(r.sq)
      && r.sq.entries == sq.entries + [entry.value]
      && r.sq.skipping == Some(n)
      && r.sq.preloading == sq.preloading
      && r.sq.playing == sq.playing
      && r.sq.state == sq.state
      && r.sq.moveWaiting == sq.moveWaiting
      && r.sq.ending == sq.ending + OptionToSeq(sq.skipping)
      && r.fx[0] == Create(n, entry.value)
      && (Suspend(n) in r.fx <==> sq.state == Paused)
      && (forall m: SlotId :: multiset(r.fx)[End(m)] == if sq.skipping == Some(m) then 1 else 0)
      && r.fx[|r.fx| - 1] == Load(n)
    ensures entry.Some? ==>
      var r := Skip<E, V>(sq, entry).value;
      forall x :: multiset(r.fx)[x] == if NewSlotCall(sq.state, |sq.entries|, entry.value, x) || EndOf(sq.skipping, x) then 1 else 0
  {
    if entry.Some? {
      SkipUnfold<E, V>(sq, entry.value);
      SkipKeepsInv(sq, entry.value);
      SlotEffectsShape<E, V>(sq.state, |sq.entries|, entry.value, sq.skipping);
      SlotEffectsExact<E, V>(sq.state, |sq.entries|, entry.value, sq.skipping);
    }
  }

  /** Proof helper: the effects `preload(entry)` appends. */
  function PreloadEffects<E, V>(sq: Sequencer<E>, e: E): seq<Effect<E, V>> {
    SlotEffects(sq.state, |sq.entries|, e, sq.preloading)
  }

  lemma PreloadUnfold<E, V>(o: Out<E, V>, e: E)
    ensures Preload(o, Some(e)) == Success(Out(
      o.sq.(entries := o.sq.entries + [e], preloading := Some(|o.sq.entries|)),
      o.fx + PreloadEffects(o.sq, e)))
  {
    var n := |o.sq.entries|;
    var o1 := NewSlot<E, V>(o, e);
    var c: seq<Effect<E, V>> := [Create(n, e)] + (if o.sq.state == Paused then [Suspend(n)] else []);
    assert o1.fx == o.fx + c;
    var o2 := SetPreloading(o1, Some(n));
    var x: seq<Effect<E, V>> := if o.sq.preloading.Some? then [End(o.sq.preloading.value)] else [];
    assert o2.fx == o.fx + c + x + [Load(n)];
    assert o.fx + c + x + [Load(n)] == o.fx + (c + x + [Load(n)]);
    assert o2.sq == o.sq.(entries := o.sq.entries + [e], preloading := Some(n));
  }

  lemma PreloadKeepsInv<E>(sq: Sequencer<E>, e: E)
    requires Inv(sq)
    ensures Inv(sq.(entries := sq.entries + [e], preloading := Some(|sq.entries|)))
  {
    var sq' := sq.(entries := sq.entries + [e], preloading := Some(|sq.entries|));
    assert Valid(sq');
    forall m: SlotId | m in sq'.ending ensures !InRole(sq', m) {
      assert !InRole(sq, m);
    }
  }

  /**
   * `preload(entry)`: an absent entry throws before any slot exists; otherwise the new
   * slot (suspended at creation when paused) becomes the preloading slot and is loaded,
   * and the previous preloading slot is ended without entering the ending collection.
   */
  lemma PreloadReplacesPreloadingSlot<E, V>(o: Out<E, V>, entry: Option<E>)
    requires Inv(o.sq)
    ensures Preload(o, entry).Failure? <==> entry.None?
    ensures entry.None? ==> Preload(o, entry).error == MissingEntry
    ensures entry.Some? ==>
      var r := Preload(o, entry).value;
      var n := |o.sq.entries|;
      var d := r.fx[|o.fx|..];
      && |o.fx| < |r.fx| && r.fx[..|o.fx|] == o.fx
      && Inv(r.sq)
      && r.sq == o.sq.(entries := o.sq.entries + [entry.value], preloading := Some(n))
      && d[0] == Create(n, entry.value)
      && (Suspend(n) in d <==> o.sq.state == Paused)
      && (forall m: SlotId :: multiset(d)[End(m)] == if o.sq.preloading == Some(m) then 1 else 0)
      && d[|d| - 1] == Load(n)
      && (forall x :: multiset(d)[x] == if NewSlotCall(o.sq.state, n, entry.value, x) || EndOf(o.sq.preloading, x) then 1 else 0)
  {
    if entry.Some? {
      PreloadUnfold(o, entry.value);
      PreloadKeepsInv(o.sq, entry.value);
      var r := Preload(o, entry).value;
      assert r.fx[|o.fx|..] == PreloadEffects<E, V>(o.sq, entry.value);
      SlotEffectsShape<E, V>(o.sq.state, |o.sq.entries|, entry.value, o.sq.preloading);
      SlotEffectsExact<E, V>(o.sq.state, |o.sq.entries|, entry.value, o.sq.preloading);
    }
  }

  // ---------------------------------------------------------------------------
  // becoming the playing slot

  /** Proof helper: the state and effects just before the playing listener preloads the next entry. */
  function BeforePreload<E, V>(o: Out<E, V>, s: SlotId): Out<E, V>
    requires s < |o.sq.entries|
  {
    var prev := o.sq.playing;
    Out(o.sq.(playing := Some(s), ending := o.sq.ending + OptionToSeq(prev)),
        o.fx + (if prev.Some? then [End(prev.value)] else []) + [Start(s), AskNext(o.sq.entries[s])])
  }

  lemma SetPlayingUnfold<E, V>(cfg: Config<E, V>, o: Out<E, V>, s: SlotId)
    requires s < |o.sq.entries|
    ensures var next := cfg.nextEntry(o.sq.entries[s]);
      SetPlaying(cfg, o, s) == if next.Some? then Preload(BeforePreload(o, s), next).value else BeforePreload(o, s)
  {
    var prev := o.sq.playing;
    assert o.sq.ending + OptionToSeq(prev) == if prev.Some? then o.sq.ending + [prev.value] else o.sq.ending;
  }

  lemma BeforePreloadKeepsInv<E, V>(o: Out<E, V>, s: SlotId)
    requires Inv(o.sq) && s < |o.sq.entries| && !IsTracked(o.sq, s)
    ensures Inv(BeforePreload(o, s).sq)
  {
    var sq, sq' := o.sq, BeforePreload(o, s).sq;
    forall i | 0 <= i < |sq'.ending| ensures sq'.ending[i] < |sq'.entries| {
      if i < |sq.ending| { assert sq'.ending[i] == sq.ending[i]; }
    }
    assert Valid(sq');
    NoDupAppend(sq.ending, OptionToSeq(sq.playing));
    forall m: SlotId | m in sq'.ending ensures !InRole(sq', m) {
      if m in sq.ending { assert !InRole(sq, m); }
    }
  }

  /** Proof helper: the effects the playing listener appends for slot s. */
  function PlayingEffects<E, V>(cfg: Config<E, V>, o: Out<E, V>, s: SlotId): seq<Effect<E, V>>
    requires s < |o.sq.entries|
  {
    var e := o.sq.entries[s];
    var next := cfg.nextEntry(e);
    (if o.sq.playing.Some? then [End(o.sq.playing.value)] else []) + [Start(s), AskNext(e)]
    + (if next.Some? then PreloadEffects(BeforePreload(o, s).sq, next.value) else [])
  }

  lemma SetPlayingShape<E, V>(cfg: Config<E, V>, o: Out<E, V>, s: SlotId)
    requires s < |o.sq.entries|
    ensures var r := SetPlaying(cfg, o, s);
      var next := cfg.nextEntry(o.sq.entries[s]);
      var mid := BeforePreload(o, s).sq;
      && r.fx == o.fx + PlayingEffects(cfg, o, s)
      && r.sq == if next.Some? then mid.(entries := mid.entries + [next.value], preloading := Some(|mid.entries|)) else mid
  {
    var e := o.sq.entries[s];
    var next := cfg.nextEntry(e);
    var mid := BeforePreload(o, s);
    var d0: seq<Effect<E, V>> := (if o.sq.playing.Some? then [End(o.sq.playing.value)] else []) + [Start(s), AskNext(e)];
    assert mid.fx == o.fx + d0;
    SetPlayingUnfold(cfg, o, s);
    if next.Some? {
      PreloadUnfold(mid, next.value);
      assert o.fx + d0 + PreloadEffects<E, V>(mid.sq, next.value) == o.fx + (d0 + PreloadEffects<E, V>(mid.sq, next.value));
    } else {
      assert d0 + [] == d0;
    }
  }

  /** The playing listener's effects: the old slot's end, start and ask, then the preload. */
  lemma PlayingEffectsSplit<E, V>(cfg: Config<E, V>, o: Out<E, V>, s: SlotId)
    requires s < |o.sq.entries| && o.sq.preloading.None?
    ensures var e := o.sq.entries[s];
      var next := cfg.nextEntry(e);
      var c := PlayingEffects(cfg, o, s)[|OptionToSeq(o.sq.playing)| + 2..];
      && PlayingEffects(cfg, o, s) == (if o.sq.playing.Some? then [End(o.sq.playing.value)] else []) + [Start(s), AskNext(e)] + c
      && (forall x :: x in c ==> !x.End? && !x.AskNext?)
      && (next.Some? ==> Load(|o.sq.entries|) in c)
  {
    var e := o.sq.entries[s];
    var next := cfg.nextEntry(e);
    if next.Some? {
      var n := |o.sq.entries|;
      var c := PreloadEffects<E, V>(BeforePreload(o, s).sq, next.value);
      assert c == [Create(n, next.value)] + (if o.sq.state == Paused then [Suspend(n)] else []) + [Load(n)];
      assert c[|c| - 1] == Load(n);
    }
  }

  lemma PlayingEffectsCounts<E, V>(cfg: Config<E, V>, o: Out<E, V>, s: SlotId)
    requires s < |o.sq.entries| && o.sq.preloading.None?
    ensures var d := PlayingEffects(cfg, o, s);
      var next := cfg.nextEntry(o.sq.entries[s]);
      && Start(s) in d
      && (next.Some? ==> Load(|o.sq.entries|) in d)
      && (forall m: SlotId :: multiset(d)[End(m)] == if o.sq.playing == Some(m) then 1 else 0)
      && (forall x :: multiset(d)[AskNext(x)] == if x == o.sq.entries[s] then 1 else 0)
  {
    PlayingEffectsSplit(cfg, o, s);
    var e := o.sq.entries[s];
    var d := PlayingEffects(cfg, o, s);
    var a: seq<Effect<E, V>> := if o.sq.playing.Some? then [End(o.sq.playing.value)] else [];
    var b: seq<Effect<E, V>> := [Start(s), AskNext(e)];
    var c := d[|OptionToSeq(o.sq.playing)| + 2..];
    assert d == a + b + c;
    assert multiset(d) == multiset(a) + multiset(b) + multiset(c);
    assert Start(s) in b;
    forall m: SlotId ensures multiset(d)[End(m)] == if o.sq.playing == Some(m) then 1 else 0 {
      assert End(m) !in c;
    }
    forall x ensures multiset(d)[AskNext(x)] == if x == e then 1 else 0 {
      assert AskNext(x) !in c;
    }
  }

  /**
   * A call made while slot s, created for e, becomes the playing slot: s is started,
   * `nextEntryProducer` is asked about e, the previous playing slot is ended, and a
   * slot for `next`, when there is one, is created and loaded.
   */
  ghost predicate PromotionCall<E, V>(sq: Sequencer<E>, s: SlotId, e: E, next: Option<E>, x: Effect<E, V>) {
    || x == Start(s)
    || x == AskNext(e)
    || EndOf(sq.playing, x)
    || (next.Some? && NewSlotCall(sq.state, |sq.entries|, next.value, x))
  }

  /**
   * Proof helper, not a second model: the calls made as slot s, created for e,
   * becomes playing with no preloading slot left: the old playing slot's end, start,
   * the ask, then the preload of `next`.
   */
  function PromotionEffects<E, V>(sq: Sequencer<E>, s: SlotId, e: E, next: Option<E>): seq<Effect<E, V>> {
    (if sq.playing.Some? then [End(sq.playing.value)] else []) + [Start(s), AskNext(e)]
    + (if next.Some? then SlotEffects(sq.state, |sq.entries|, next.value, None) else [])
  }

  /** Each of those calls is made exactly once, and no other call is made. */
  lemma PromotionEffectsExact<E, V>(sq: Sequencer<E>, s: SlotId, e: E, next: Option<E>)
    ensures forall x :: multiset(PromotionEffects<E, V>(sq, s, e, next))[x] == if PromotionCall(sq, s, e, next, x) then 1 else 0
  {
    forall x ensures multiset(PromotionEffects<E, V>(sq, s, e, next))[x] == if PromotionCall(sq, s, e, next, x) then 1 else 0 {
      PromotionCallCount(sq, s, e, next, x);
    }
  }

  /** The count of one call among the promotion's calls. */
  lemma PromotionCallCount<E, V>(sq: Sequencer<E>, s: SlotId, e: E, next: Option<E>, x: Effect<E, V>)
    ensures multiset(PromotionEffects<E, V>(sq, s, e, next))[x] == if PromotionCall(sq, s, e, next, x) then 1 else 0
  {
    var a: seq<Effect<E, V>> := if sq.playing.Some? then [End(sq.playing.value)] else [];
    var b: seq<Effect<E, V>> := [Start(s), AskNext(e)];
    var c: seq<Effect<E, V>> := if next.Some? then SlotEffects(sq.state, |sq.entries|, next.value, None) else [];
    assert PromotionEffects<E, V>(sq, s, e, next) == a + b + c;
    CountJoin3(a, b, c, x);
    if sq.playing.Some? {
      CountOne<Effect<E, V>>(End(sq.playing.value), x);
    }
    CountPair<Effect<E, V>>(Start(s), AskNext(e), x);
    if next.Some? {
      SlotEffectsExact<E, V>(sq.state, |sq.entries|, next.value, None);
    }
    PromotionCallParts(sq, s, e, next, x);
  }

  /** The three groups of promotion calls never share a call. */
  lemma PromotionCallParts<E, V>(sq: Sequencer<E>, s: SlotId, e: E, next: Option<E>, x: Effect<E, V>)
    ensures (if PromotionCall(sq, s, e, next, x) then 1 else 0)
         == (if EndOf(sq.playing, x) then 1 else 0)
          + (if x == Start(s) || x == AskNext(e) then 1 else 0)
          + (if next.Some? && NewSlotCall(sq.state, |sq.entries|, next.value, x) then 1 else 0)
  {
  }

  /** The playing listener's effects are those of the promotion. */
  lemma PlayingEffectsExact<E, V>(cfg: Config<E, V>, o: Out<E, V>, s: SlotId)
    requires s < |o.sq.entries| && o.sq.preloading.None?
    ensures var e := o.sq.entries[s];
      PlayingEffects(cfg, o, s) == PromotionEffects(o.sq, s, e, cfg.nextEntry(e))
  {
    var mid := BeforePreload(o, s).sq;
    assert mid.state == o.sq.state && |mid.entries| == |o.sq.entries| && mid.preloading.None?;
  }

  /**
   * A slot becoming `playing` (the playing listener, with no preloading slot left):
   * the previous playing slot is ended and moves to the ending collection, the new one
   * is started and never ended, `nextEntryProducer` is asked exactly once, about the
   * new slot's entry, and a preloading slot is created and loaded exactly when it
   * answers with an entry.
   */
  lemma BecomePlaying<E, V>(cfg: Config<E, V>, o: Out<E, V>, s: SlotId)
    requires Inv(o.sq) && s < |o.sq.entries| && !IsTracked(o.sq, s) && o.sq.preloading.None?
    ensures var r := SetPlaying(cfg, o, s);
      var e := o.sq.entries[s];
      var next := cfg.nextEntry(e);
      var n := |o.sq.entries|;
      var d := r.fx[|o.fx|..];
      && |o.fx| <= |r.fx| && r.fx[..|o.fx|] == o.fx
      && Inv(r.sq)
      && r.sq.playing == Some(s)
      && r.sq.skipping == o.sq.skipping
      && r.sq.state == o.sq.state
      && r.sq.moveWaiting == o.sq.moveWaiting
      && r.sq.ending == o.sq.ending + OptionToSeq(o.sq.playing)
      && (next.None? ==> r.sq.preloading.None? && r.sq.entries == o.sq.entries)
      && (next.Some? ==> r.sq.preloading == Some(n) && r.sq.entries == o.sq.entries + [next.value] && Load(n) in d)
      && Start(s) in d
      && (forall m: SlotId :: multiset(d)[End(m)] == if o.sq.playing == Some(m) then 1 else 0)
      && (forall x :: multiset(d)[AskNext(x)] == if x == e then 1 else 0)
      && (forall x :: multiset(d)[x] == if PromotionCall(o.sq, s, e, next, x) then 1 else 0)
  {
    var next := cfg.nextEntry(o.sq.entries[s]);
    SetPlayingShape(cfg, o, s);
    PlayingEffectsCounts(cfg, o, s);
    PlayingEffectsExact(cfg, o, s);
    PromotionEffectsExact<E, V>(o.sq, s, o.sq.entries[s], next);
    BeforePreloadKeepsInv(o, s);
    var mid := BeforePreload(o, s).sq;
    if next.Some? {
      PreloadKeepsInv(mid, next.value);
    }
    var r := SetPlaying(cfg, o, s);
    assert r.fx[..|o.fx|] == o.fx;
    assert r.fx[|o.fx|..] == PlayingEffects(cfg, o, s);
  }

  // ---------------------------------------------------------------------------
  // load completions

  /**
   * The skipped slot's load resolves while it is still the skipping slot: skipping is
   * cleared, the preloading slot (if any) is ended without entering the ending
   * collection, the previous playing slot is ended and moves there, and the promoted
   * slot plays and is never ended.
   */
  lemma SkipLoadPromotes<E, V>(cfg: Config<E, V>, sq: Sequencer<E>, s: SlotId)
    requires Inv(sq) && sq.skipping == Some(s)
    ensures var r := OnLoadDone(cfg, sq, s);
      var next := cfg.nextEntry(sq.entries[s]);
      var n := |sq.entries|;
      && Inv(r.sq)
      && r.sq.skipping.None?
      && r.sq.playing == Some(s)
      && r.sq.state == sq.state
      && r.sq.moveWaiting == sq.moveWaiting - {s}
      && r.sq.ending == sq.ending + OptionToSeq(sq.playing)
      && (next.None? ==> r.sq.preloading.None? && r.sq.entries == sq.entries)
      && (next.Some? ==> r.sq.preloading == Some(n) && r.sq.entries == sq.entries + [next.value] && Load(n) in r.fx)
      && Start(s) in r.fx
      && (forall m: SlotId :: multiset(r.fx)[End(m)] == if sq.preloading == Some(m) || sq.playing == Some(m) then 1 else 0)
      && (forall x :: multiset(r.fx)[AskNext(x)] == if x == sq.entries[s] then 1 else 0)
      && (forall x :: multiset(r.fx)[x] == if PromotionCall(sq, s, sq.entries[s], next, x) || EndOf(sq.preloading, x) then 1 else 0)
  {
    var o2 := SkipLoadCleared<E, V>(sq, s);
    SkipLoadUnfold(cfg, sq, s);
    BecomePlaying(cfg, o2, s);
    var r := SetPlaying(cfg, o2, s);
    var a, d := o2.fx, r.fx[|o2.fx|..];
    assert r.fx == a + d;
    var next := cfg.nextEntry(sq.entries[s]);
    forall x ensures multiset(r.fx)[x] == if PromotionCall(sq, s, sq.entries[s], next, x) || EndOf(sq.preloading, x) then 1 else 0 {
      assert multiset(r.fx)[x] == multiset(a)[x] + multiset(d)[x];
      assert multiset(a)[x] == if EndOf(sq.preloading, x) then 1 else 0;
      assert PromotionCall(o2.sq, s, sq.entries[s], next, x) == PromotionCall(sq, s, sq.entries[s], next, x);
    }
    forall m: SlotId
      ensures multiset(r.fx)[End(m)] == if sq.preloading == Some(m) || sq.playing == Some(m) then 1 else 0
    {
      assert multiset(r.fx)[End(m)] == multiset(a)[End(m)] + multiset(d)[End(m)];
    }
    forall x ensures multiset(r.fx)[AskNext(x)] == if x == sq.entries[s] then 1 else 0 {
      assert multiset(r.fx)[AskNext(x)] == multiset(a)[AskNext(x)] + multiset(d)[AskNext(x)];
    }
  }

  /** Skipping cleared and preloading set to none, the old preloading slot ended. */
  function SkipLoadCleared<E, V>(sq: Sequencer<E>, s: SlotId): Out<E, V> {
    Out(sq.(moveWaiting := sq.moveWaiting - {s}, skipping := None, preloading := None),
        if sq.preloading.Some? then [End(sq.preloading.value)] else [])
  }

  lemma SkipLoadUnfold<E, V>(cfg: Config<E, V>, sq: Sequencer<E>, s: SlotId)
    requires Inv(sq) && sq.skipping == Some(s)
    ensures var o2 := SkipLoadCleared<E, V>(sq, s);
      && Inv(o2.sq) && !IsTracked(o2.sq, s) && o2.sq.entries == sq.entries
      && OnLoadDone(cfg, sq, s) == SetPlaying(cfg, o2, s)
  {
    var o2 := SkipLoadCleared<E, V>(sq, s);
    assert Valid(o2.sq);
    assert forall m: SlotId :: InRole(o2.sq, m) ==> InRole(sq, m);
  }

  /**
   * A `move` continuation runs for the slot that is still preloading: preloading is
   * cleared, the previous playing slot is ended and moves to the ending collection,
   * and the slot plays and is never ended. The skipping slot is left alone.
   */
  lemma MoveLoadPromotes<E, V>(cfg: Config<E, V>, sq: Sequencer<E>, s: SlotId)
    requires Inv(sq) && s in sq.moveWaiting && sq.preloading == Some(s)
    ensures var r := OnLoadDone(cfg, sq, s);
      var next := cfg.nextEntry(sq.entries[s]);
      var n := |sq.entries|;
      && Inv(r.sq)
      && r.sq.skipping == sq.skipping
      && r.sq.playing == Some(s)
      && r.sq.state == sq.state
      && r.sq.moveWaiting == sq.moveWaiting - {s}
      && r.sq.ending == sq.ending + OptionToSeq(sq.playing)
      && (next.None? ==> r.sq.preloading.None? && r.sq.entries == sq.entries)
      && (next.Some? ==> r.sq.preloading == Some(n) && r.sq.entries == sq.entries + [next.value] && Load(n) in r.fx)
      && Start(s) in r.fx
      && (forall m: SlotId :: multiset(r.fx)[End(m)] == if sq.playing == Some(m) then 1 else 0)
      && (forall x :: multiset(r.fx)[AskNext(x)] == if x == sq.entries[s] then 1 else 0)
      && (forall x :: multiset(r.fx)[x] == if PromotionCall(sq, s, sq.entries[s], next, x) then 1 else 0)
  {
    var o1: Out<E, V> := Out(sq.(moveWaiting := sq.moveWaiting - {s}, preloading := None), []);
    assert Valid(o1.sq);
    assert forall m: SlotId :: InRole(o1.sq, m) ==> InRole(sq, m);
    assert Inv(o1.sq);
    BecomePlaying(cfg, o1, s);
    var r := SetPlaying(cfg, o1, s);
    assert r.fx[|o1.fx|..] == r.fx;
    var next := cfg.nextEntry(sq.entries[s]);
    forall x ensures multiset(r.fx)[x] == if PromotionCall(sq, s, sq.entries[s], next, x) then 1 else 0 {
      assert PromotionCall(o1.sq, s, sq.entries[s], next, x) == PromotionCall(sq, s, sq.entries[s], next, x);
    }
  }

  /**
   * A load resolution that no pending continuation still wants changes no role and
   * calls nothing; the resolved slot merely stops being awaited by a `move`.
   */
  lemma StaleLoadIgnored<E, V>(cfg: Config<E, V>, sq: Sequencer<E>, s: SlotId)
    requires Inv(sq)
    requires sq.skipping != Some(s)
    requires !(s in sq.moveWaiting && sq.preloading == Some(s))
    ensures var r := OnLoadDone(cfg, sq, s);
      && Inv(r.sq)
      && r.fx == []
      && r.sq.preloading == sq.preloading
      && r.sq.skipping == sq.skipping
      && r.sq.playing == sq.playing
      && r.sq.ending == sq.ending
      && r.sq.entries == sq.entries
      && r.sq.state == sq.state
      && r.sq.moveWaiting == sq.moveWaiting - {s}
  {
  }

  // ---------------------------------------------------------------------------
  // cues and end completions

  /**
   * `move()`: without a preloading slot nothing happens; otherwise the preloading
   * slot's load is asked for again and a continuation now waits on it.
   */
  lemma MoveWaitsForPreloading<E, V>(sq: Sequencer<E>)
    requires Inv(sq)
    ensures var r := Move<E, V>(sq);
      && Inv(r.sq)
      && (sq.preloading.None? ==> r.sq == sq && r.fx == [])
      && (sq.preloading.Some? ==>
            && r.fx == [Load(sq.preloading.value)]
            && r.sq.moveWaiting == sq.moveWaiting + {sq.preloading.value}
            && r.sq == sq.(moveWaiting := r.sq.moveWaiting))
  {
  }

  /**
   * `notifyComingNext()`: throws when nothing plays; otherwise reports the playing
   * slot's video and the upcoming one, the skipping slot's taking priority over the
   * preloading slot's, and changes nothing.
   */
  lemma ComingNextReportsUpcoming<E, V>(cfg: Config<E, V>, sq: Sequencer<E>)
    requires Valid(sq)
    ensures NotifyComingNext(cfg, sq).Failure? <==> sq.playing.None?
    ensures sq.playing.None? ==> NotifyComingNext(cfg, sq).error == NoPlayingSlot
    ensures sq.playing.Some? ==>
      var r := NotifyComingNext(cfg, sq).value;
      && r.sq == sq
      && |r.fx| == 1 && r.fx[0].ComingNext?
      && r.fx[0].current == cfg.video(sq.entries[sq.playing.value])
      && (r.fx[0].next.Some? <==> sq.skipping.Some? || sq.preloading.Some?)
      && (sq.skipping.Some? ==> r.fx[0].next == Some(cfg.video(sq.entries[sq.skipping.value])))
      && (sq.skipping.None? && sq.preloading.Some? ==> r.fx[0].next == Some(cfg.video(sq.entries[sq.preloading.value])))
  {
  }

  /** An ending slot's `end()` resolves: it, and only it, leaves the ending collection. */
  lemma EndDoneRemovesSlot<E, V>(sq: Sequencer<E>, s: SlotId)
    requires Inv(sq)
    ensures var r := OnEndDone<E, V>(sq, s);
      && Inv(r.sq)
      && r.fx == []
      && (forall m: SlotId :: m in r.sq.ending <==> m in sq.ending && m != s)
      && r.sq == sq.(ending := r.sq.ending)
  {
    var r := OnEndDone<E, V>(sq, s);
    forall i | 0 <= i < |r.sq.ending| ensures r.sq.ending[i] < |r.sq.entries| {
      assert r.sq.ending[i] in sq.ending;
    }
    assert Valid(r.sq);
    forall m: SlotId | m in r.sq.ending ensures !InRole(r.sq, m) {
      assert m in sq.ending;
    }
  }

  // ---------------------------------------------------------------------------
  // any single event

  /**
   * What one event does to roles and `end()` calls: the invariant is kept, slots are
   * only ever added, every new slot holds a role, a slot that held no role never gets
   * one back, and `end()` is called exactly once on each slot that loses its last
   * role and on no other slot.
   */
  ghost predicate Accounts<E, V>(sq: Sequencer<E>, r: Out<E, V>) {
    && Inv(r.sq)
    && sq.entries <= r.sq.entries
    && (forall m: SlotId :: |sq.entries| <= m < |r.sq.entries| ==> InRole(r.sq, m))
    && (forall m: SlotId :: m < |sq.entries| && !InRole(sq, m) ==> !InRole(r.sq, m))
    && (forall m: SlotId :: multiset(r.fx)[End(m)] == if InRole(sq, m) && !InRole(r.sq, m) then 1 else 0)
  }

  /** A skip, stated over the resulting roles only. */
  lemma SkipRolesAccount<E, V>(sq: Sequencer<E>, r: Out<E, V>)
    requires Inv(sq) && Inv(r.sq)
    requires sq.entries <= r.sq.entries && |r.sq.entries| == |sq.entries| + 1
    requires r.sq.skipping == Some(|sq.entries|)
    requires r.sq.preloading == sq.preloading && r.sq.playing == sq.playing
    requires forall m: SlotId :: multiset(r.fx)[End(m)] == if sq.skipping == Some(m) then 1 else 0
    ensures Accounts(sq, r)
  {
  }

  lemma SkipAccounts<E, V>(sq: Sequencer<E>, e: E)
    requires Inv(sq)
    ensures Accounts(sq, Skip<E, V>(sq, Some(e)).value)
  {
    SkipReplacesSkippingSlot<E, V>(sq, Some(e));
    SkipRolesAccount(sq, Skip<E, V>(sq, Some(e)).value);
  }

  /** A promotion of s, stated over the resulting roles only. */
  lemma PromotionAccounts<E, V>(sq: Sequencer<E>, r: Out<E, V>, s: SlotId, ended: set<SlotId>)
    requires Inv(sq) && Inv(r.sq) && InRole(sq, s)
    requires r.sq.playing == Some(s)
    requires r.sq.skipping.None? || r.sq.skipping == sq.skipping
    requires (r.sq.preloading.None? && r.sq.entries == sq.entries)
          || (r.sq.preloading == Some(|sq.entries|) && sq.entries <= r.sq.entries && |r.sq.entries| == |sq.entries| + 1)
    requires forall m: SlotId :: m in ended <==> InRole(sq, m) && !InRole(r.sq, m)
    requires forall m: SlotId :: multiset(r.fx)[End(m)] == if m in ended then 1 else 0
    ensures Accounts(sq, r)
  {
  }

  lemma SkipPromotionAccounts<E, V>(sq: Sequencer<E>, r: Out<E, V>, s: SlotId)
    requires Inv(sq) && sq.skipping == Some(s) && Inv(r.sq)
    requires r.sq.skipping.None? && r.sq.playing == Some(s)
    requires (r.sq.preloading.None? && r.sq.entries == sq.entries)
          || (r.sq.preloading == Some(|sq.entries|) && sq.entries <= r.sq.entries && |r.sq.entries| == |sq.entries| + 1)
    requires forall m: SlotId :: multiset(r.fx)[End(m)] == if sq.preloading == Some(m) || sq.playing == Some(m) then 1 else 0
    ensures Accounts(sq, r)
  {
    var ended := set m: SlotId | m < |sq.entries| && (sq.preloading == Some(m) || sq.playing == Some(m));
    forall m: SlotId ensures m in ended <==> InRole(sq, m) && !InRole(r.sq, m) {
    }
    forall m: SlotId ensures multiset(r.fx)[End(m)] == if m in ended then 1 else 0 {
      assert m in ended <==> sq.preloading == Some(m) || sq.playing == Some(m);
    }
    PromotionAccounts(sq, r, s, ended);
  }

  lemma SkipLoadAccounts<E, V>(cfg: Config<E, V>, sq: Sequencer<E>, s: SlotId)
    requires Inv(sq) && sq.skipping == Some(s)
    ensures Accounts(sq, OnLoadDone(cfg, sq, s))
  {
    SkipLoadPromotes(cfg, sq, s);
    var r := OnLoadDone(cfg, sq, s);
    assert (r.sq.preloading.None? && r.sq.entries == sq.entries)
        || (r.sq.preloading == Some(|sq.entries|) && sq.entries <= r.sq.entries && |r.sq.entries| == |sq.entries| + 1);
    SkipPromotionAccounts(sq, r, s);
  }

  lemma MoveLoadAccounts<E, V>(cfg: Config<E, V>, sq: Sequencer<E>, s: SlotId)
    requires Inv(sq) && s in sq.moveWaiting && sq.preloading == Some(s)
    ensures Accounts(sq, OnLoadDone(cfg, sq, s))
  {
    MoveLoadPromotes(cfg, sq, s);
    var ended := set m: SlotId | m < |sq.entries| && sq.playing == Some(m);
    PromotionAccounts(sq, OnLoadDone(cfg, sq, s), s, ended);
  }

  lemma NotifyAccounts<E, V>(sq: Sequencer<E>, r: Out<E, V>)
    requires Inv(sq) && Inv(r.sq)
    requires r.sq.preloading == sq.preloading && r.sq.skipping == sq.skipping && r.sq.playing == sq.playing
    requires r.sq.entries == sq.entries
    requires forall i :: 0 <= i < |r.fx| ==> !r.fx[i].End?
    ensures Accounts(sq, r)
  {
    forall m: SlotId ensures multiset(r.fx)[End(m)] == 0 {
      assert End(m) !in r.fx;
    }
  }

  lemma PlayAccounts<E, V>(sq: Sequencer<E>)
    requires Inv(sq)
    ensures Accounts(sq, Play<E, V>(sq))
  {
    PlayProceedsEveryTrackedSlot<E, V>(sq);
    NotifyAccounts(sq, Play<E, V>(sq));
  }

  lemma PauseAccounts<E, V>(sq: Sequencer<E>)
    requires Inv(sq)
    ensures Accounts(sq, Pause<E, V>(sq))
  {
    PauseSuspendsEveryTrackedSlot<E, V>(sq);
    NotifyAccounts(sq, Pause<E, V>(sq));
  }

  lemma ComingNextAccounts<E, V>(cfg: Config<E, V>, sq: Sequencer<E>)
    requires Inv(sq) && NotifyComingNext(cfg, sq).Success?
    ensures Accounts(sq, NotifyComingNext(cfg, sq).value)
  {
    ComingNextReportsUpcoming(cfg, sq);
    NotifyAccounts(sq, NotifyComingNext(cfg, sq).value);
  }

  lemma MoveAccounts<E, V>(sq: Sequencer<E>)
    requires Inv(sq)
    ensures Accounts(sq, Move<E, V>(sq))
  {
    MoveWaitsForPreloading<E, V>(sq);
    NotifyAccounts(sq, Move<E, V>(sq));
  }

  lemma LoadAccounts<E, V>(cfg: Config<E, V>, sq: Sequencer<E>, s: SlotId)
    requires Inv(sq)
    ensures Accounts(sq, OnLoadDone(cfg, sq, s))
  {
    if sq.skipping == Some(s) {
      SkipLoadAccounts(cfg, sq, s);
    } else if s in sq.moveWaiting && sq.preloading == Some(s) {
      MoveLoadAccounts(cfg, sq, s);
    } else {
      StaleLoadIgnored(cfg, sq, s);
      NotifyAccounts(sq, OnLoadDone(cfg, sq, s));
    }
  }

  lemma EndDoneAccounts<E, V>(sq: Sequencer<E>, s: SlotId)
    requires Inv(sq)
    ensures Accounts(sq, OnEndDone<E, V>(sq, s))
  {
    EndDoneRemovesSlot<E, V>(sq, s);
    NotifyAccounts(sq, OnEndDone<E, V>(sq, s));
  }

  /** One event, whichever it is, accounts for its roles and `end()` calls. */
  lemma StepAccounts<E, V>(cfg: Config<E, V>, sq: Sequencer<E>, ev: Event<E>)
    requires Inv(sq) && Step(cfg, sq, ev).Success?
    ensures Accounts(sq, Step(cfg, sq, ev).value)
  {
    match ev
    case CallPlay => PlayAccounts<E, V>(sq);
    case CallPause => PauseAccounts<E, V>(sq);
    case CallSkip(entry) => SkipAccounts<E, V>(sq, entry.value);
    case CueEndingSoon => ComingNextAccounts(cfg, sq);
    case CueEnding => MoveAccounts<E, V>(sq);
    case LoadDone(s) => LoadAccounts(cfg, sq, s);
    case EndDone(s) => EndDoneAccounts<E, V>(sq, s);
  }

  /**
   * The playing slot changes only when a load resolution promotes the slot whose load
   * resolved, and only if that slot is still the skipping slot, or is still the
   * preloading slot with a `move` waiting on it.
   */
  lemma PlayingChangesOnlyByPromotion<E, V>(cfg: Config<E, V>, sq: Sequencer<E>, ev: Event<E>)
    requires Inv(sq) && Step(cfg, sq, ev).Success?
    requires Step(cfg, sq, ev).value.sq.playing != sq.playing
    ensures ev.LoadDone?
    ensures Step(cfg, sq, ev).value.sq.playing == Some(ev.slot)
    ensures sq.skipping == Some(ev.slot) || (sq.preloading == Some(ev.slot) && ev.slot in sq.moveWaiting)
  {
    match ev
    case CallPlay => PlayProceedsEveryTrackedSlot<E, V>(sq);
    case CallPause => PauseSuspendsEveryTrackedSlot<E, V>(sq);
    case CallSkip(entry) => SkipReplacesSkippingSlot<E, V>(sq, entry);
    case CueEndingSoon => ComingNextReportsUpcoming(cfg, sq);
    case CueEnding => MoveWaitsForPreloading<E, V>(sq);
    case LoadDone(s) =>
      if sq.skipping == Some(s) {
        SkipLoadPromotes(cfg, sq, s);
      } else if s in sq.moveWaiting && sq.preloading == Some(s) {
        MoveLoadPromotes(cfg, sq, s);
      } else {
        StaleLoadIgnored(cfg, sq, s);
      }
    case EndDone(s) => EndDoneRemovesSlot<E, V>(sq, s);
  }

  /**
   * Only a `move` makes a continuation wait on a load, and it waits on the slot that
   * is preloading at that moment; a load resolution stops that slot being awaited, and
   * every other event leaves the awaited slots as they are.
   */
  lemma MoveWaitingOnlyByMove<E, V>(cfg: Config<E, V>, sq: Sequencer<E>, ev: Event<E>)
    requires Inv(sq) && Step(cfg, sq, ev).Success?
    ensures var w := Step(cfg, sq, ev).value.sq.moveWaiting;
      && (ev.CueEnding? ==> w == sq.moveWaiting + (if sq.preloading.Some? then {sq.preloading.value} else {}))
      && (ev.LoadDone? ==> w == sq.moveWaiting - {ev.slot})
      && (!ev.CueEnding? && !ev.LoadDone? ==> w == sq.moveWaiting)
  {
    match ev
    case CallPlay => PlayProceedsEveryTrackedSlot<E, V>(sq);
    case CallPause => PauseSuspendsEveryTrackedSlot<E, V>(sq);
    case CallSkip(entry) => SkipReplacesSkippingSlot<E, V>(sq, entry);
    case CueEndingSoon => ComingNextReportsUpcoming(cfg, sq);
    case CueEnding => MoveWaitsForPreloading<E, V>(sq);
    case LoadDone(s) =>
      if sq.skipping == Some(s) {
        SkipLoadPromotes(cfg, sq, s);
      } else if s in sq.moveWaiting && sq.preloading == Some(s) {
        MoveLoadPromotes(cfg, sq, s);
      } else {
        StaleLoadIgnored(cfg, sq, s);
      }
    case EndDone(s) => EndDoneRemovesSlot<E, V>(sq, s);
  }
}

=== FILE: wrappers.dfy ===
/** Absent values and thrown errors, shared by every module of the model. */
module Wrappers {

  /** A value that may be absent: the source's `null` / `undefined` (any falsy object reference). */
  datatype Option<+T> = None | Some(value: T)

  /** The outcome of an operation that either returns normally or throws `error` before changing anything. */
  datatype Result<+T, +X> = Success(value: T) | Failure(error: X)

  /** The zero- or one-element sequence holding the value of `x`, if any. */
  function OptionToSeq<T>(x: Option<T>): (s: seq<T>)
    ensures |s| == (if x.Some? then 1 else 0)
    ensures x.Some? ==> s[0] == x.value
  {
    if x.Some? then [x.value] else []
  }
}
